=== FILE: README.md ===
# Quiz bot: progress state machine and YandexGPT client

This project is a Dafny model of the core of a Telegram quiz bot. The bot
takes each user through a fixed bank of multiple-choice questions. After the
second question it shows an intermediate screen. From that screen the user can
send a free-text question to YandexGPT. At the end it shows a final screen.

The model covers:

- **Per-user progress and FSM state** (`bot.py`). A user's `Session` pairs the
  `user_results` entry (`current_question`, `correct_answers`, the answer log)
  with the FSM state. The FSM state is `Idle` (no state), `WaitingForAnswer`,
  `WaitingIntermediate` or `AskingGpt`. Each handler is a pure function
  returning a `Step`: the new session, the abstract screens shown, and the
  Python exception that ended the handler, if any. A handler that raises keeps
  the effects it made before the raise. `Handle` routes an event the way the
  dispatcher does. `Deliver` applies it to the store of all users. `Run` and
  `Trace` fold over event sequences.
- **The answer-button codec.** The keyboard sends `answer_{q}_{i}`, and
  `process_answer` decodes it with `split("_")` and `int`. The model spells out
  Python's `str.split`, `int()` (surrounding whitespace other than the information separators U+001C to U+001F, optional sign, ASCII digits)
  and the decimal formatting of an int.
- **The YandexGPT client** (`yandex_gpt.py`). This covers the request body and
  headers that `make_zap` builds and the two-message list that `ask_yandex_gpt`
  sends. It also covers pulling `result.alternatives[0].message.text` out of
  the decoded reply with Python subscript semantics, removing every `*`, and
  the fallback text for `IndexError`/`TypeError`/`KeyError`. The HTTP call is a
  parameter, `post: HttpRequest -> Reply`.

The question bank (`quiz_data.py`) is not part of this model. It is a
parameter: a sequence of records, each holding the options, the `correct`
index and the `responses` map.

Files: `wrappers.dfy` (Option/Result), `builtins.dfy` (Python built-ins),
`json.dfy` (JSON values and subscripts), `yandex_gpt.dfy`, `quiz.dfy` (bank
records and progress), `callback.dfy` (button data), `bot.dfy` (handlers,
routing, store) and `bot_properties.dfy` (properties over several events).

Where the code and the intended design of the system differ, the model follows
the code:

- `process_answer` never compares the button's question index with
  `current_question`. A button from an earlier question still logs an answer
  and advances the counter. It also looks the question up with Python
  indexing, so a negative index counts from the end of the bank.
- The final screen is chosen when `current_question >= len(QUIZ_QUESTIONS)`,
  not `==`. The threshold check `== 2` comes first, so with a bank of at most
  two questions the intermediate screen still wins.
- `skip_intermediate` and the answer handler do not check the FSM state.
- After a GPT question, the next state depends only on `current_question == 2`.
  It is not a remembered earlier state. `cancel_gpt` clears the state.
- `make_zap` does not catch every failure. A non-str `text` (AttributeError),
  a body that is not JSON, and transport errors all propagate. The bot
  catches them and shows its error screen.
- `/start` resets progress but leaves the FSM state as it was.

## Model

| member | source | states |
|---|---|---|
| Builtins.PyIndex | bot.py:246 | `QUIZ_QUESTIONS[i]` succeeds exactly for `-len <= i < len`; a negative index reads from the end |
| Builtins.StripLeft | bot.py:379 | the result is a suffix of the input; everything dropped is whitespace; the result does not start with whitespace |
| Builtins.StripRight | bot.py:379 | the result is a prefix of the input; everything dropped is whitespace; the result does not end with whitespace |
| Builtins.IsSpace | bot.py:379 | the character set `str.isspace` accepts: U+0009 to U+000D, U+001C to U+0020, U+0085, U+00A0, U+1680, U+2000 to U+200A, U+2028, U+2029, U+202F, U+205F and U+3000 |
| Builtins.Strip | bot.py:379 | `question.strip()` is a contiguous slice of the text with only whitespace before and after it, and with no whitespace at either end. It is empty exactly when every character is Python whitespace |
| Builtins.StripFacts | bot.py:379 | from the lstrip() and rstrip() facts: the stripped text sits between two runs of whitespace, has no whitespace at either end, and is empty exactly when the text is all whitespace |
| Builtins.StripStars | yandex_gpt.py:28 | `replace('*', '')` leaves no `*` |
| Builtins.StripStarsCounts | yandex_gpt.py:28 | every character other than `*` occurs in the result exactly as often as in the input, and `*` not at all |
| Builtins.StripStarsConcat | yandex_gpt.py:28 | removing stars distributes over concatenation, so the kept characters stay in their original order |
| Builtins.StripStarsNoStar | yandex_gpt.py:28 | a text without `*` comes back unchanged |
| Builtins.StripStarsIdempotent | yandex_gpt.py:28 | removing stars twice is the same as once |
| Builtins.Split | bot.py:242 | `split("_")` gives at least one part; no part contains `_`; joining the parts with `_` gives the input back |
| Builtins.SplitAfterPiece | bot.py:242 | the text before the first separator is the first part |
| Builtins.SplitNoSep | bot.py:242 | a text without the separator splits into itself alone |
| Builtins.SplitJoin | bot.py:242 | split undoes join whenever no part contains the separator |
| Builtins.Decimal | bot.py:47 | `f"{n}"` is a non-empty digit string with no leading zero whose value is `n` |
| Builtins.ParseInt | bot.py:243-244 | `int()` fails only with ValueError, and always fails when its argument holds one of the information separators U+001C to U+001F, which `str.isspace` counts as whitespace but `int()` does not skip |
| Builtins.SeparatorRejected | bot.py:243-244 | `"\x1c1".strip()` is `"1"`, yet `int("\x1c1")` raises ValueError |
| Builtins.ParseSigned | bot.py:243-244 | after stripping, `int()` fails only with ValueError and reads a non-empty ASCII digit string as the value of its digits. |
| Builtins.ParseSignedSign | bot.py:243-244 | after a leading `-` or `+`, a non-empty ASCII digit string reads as the value of its digits, negated for `-` |
| Builtins.ParseSignedOk | bot.py:243-244 | after stripping, `int()` succeeds exactly on a numeral: at least one ASCII digit after an optional `+` or `-`; anything else (`""`, `"-"`, `"x"`, `"1a"`) raises ValueError |
| Builtins.ParseIntOk | bot.py:243-244 | `int(s)` succeeds exactly when `s` holds no information separator and strips to a numeral, and otherwise raises ValueError |
| Builtins.ParseDigits | bot.py:243-244 | `int()` of a non-empty ASCII digit string is the value of its digits |
| Builtins.ParseDecimal | bot.py:243-244 | `int(f"{n}") == n` for every natural `n` |
| Json.Subscript | yandex_gpt.py:27 | one Python subscript on a decoded JSON value. A dict with a str key yields the value, or raises KeyError when the key is missing; a dict with an int raises KeyError. A list with an int yields the element (negative indices count from the end), or raises IndexError out of range. A str with an int yields the one-character str, or raises IndexError out of range. A list or a str with a str key raises TypeError, and so do None, bool, int and float. Only IndexError, KeyError and TypeError are raised |
| Json.Lookup | yandex_gpt.py:27 | a chain of subscripts fails only with IndexError, KeyError or TypeError |
| YandexGpt.RequestBody | yandex_gpt.py:5-16 | the body has exactly `modelUri`, `completionOptions`, `messages`. The options are exactly `stream = false`, the configured temperature, and `maxTokens`: the configured budget when none is given, otherwise the argument unchanged. Messages are passed through unchanged |
| YandexGpt.Headers | yandex_gpt.py:19-22 | exactly `Content-Type: application/json` and the configured `Authorization` |
| YandexGpt.Request | yandex_gpt.py:4-25 | `requests.post` receives the configured URL, those headers, and exactly the `prompt` built by RequestBody as its JSON payload |
| YandexGpt.LookupAnswerPath | yandex_gpt.py:27 | `res['result']['alternatives'][0]['message']['text']` succeeds exactly when each step is a dict holding the key and `alternatives` is a non-empty list whose first element is a dict; it then yields that leaf |
| YandexGpt.ExtractAnswer | yandex_gpt.py:26-31 | on a well-shaped reply: the text with every `*` removed; a missing key, empty list or wrong type gives the fallback string; a non-str `text` gives AttributeError; a returned text never contains `*` |
| YandexGpt.MakeZap | yandex_gpt.py:4-31 | fails exactly on a transport failure, a non-JSON body or a non-str text; otherwise returns the star-free text or the fallback |
| YandexGpt.Messages | yandex_gpt.py:35-44 | exactly two messages, each with only `role` and `text`: first the system message, then the user message whose text is the question verbatim |
| YandexGpt.AskRequest | yandex_gpt.py:33-46 | `ask_yandex_gpt` posts exactly the request make_zap builds from the two-message list and the default budget; so the payload has the configured token budget and the question as the text of the second message |
| YandexGpt.AskYandexGpt | yandex_gpt.py:33-47 | the same outcomes as `make_zap` for the reply to that request; a returned text never contains `*` |
| Quiz.ResponseText | bot.py:260 | the follow-up text is `responses[answer]` when the option has one, otherwise `"Ответ обработан"` |
| Quiz.CountCorrect | bot.py:250-257 | the number of log entries marked correct is at most the log length |
| Quiz.RecordAnswer | bot.py:246-267 | the counter moves on by one; exactly one entry `(question, answer, answer == correct)` is appended; the right-answer count goes up by one exactly when the answer is the right one, otherwise it is unchanged |
| Quiz.FreshTallied | bot.py:111-115 | the reset record is consistent |
| Quiz.RecordPreservesTally | bot.py:250-267 | recording an answer keeps `correct_answers` equal to the number of correct entries and `current_question` equal to the log length |
| Quiz.TalliedBound | bot.py:250-257 | in a consistent record, `correct_answers <= len(answers) == current_question` |
| Callback.AnswerData | bot.py:47 | the data of an answer button starts with `answer_`, the prefix that routes it to the answer handler |
| Callback.DecodeAnswer | bot.py:242-244 | decoding fails only with ValueError; a success means the data split into exactly three parts |
| Callback.DecodeAnswerOk | bot.py:242-244 | decoding succeeds exactly when the data splits on `_` into three parts and `int()` reads both the second and the third |
| Callback.DecodeAnswerData | bot.py:242-244 | decoding `answer_{q}_{i}` gives back `(q, i)` for all naturals `q` and `i` |
| Callback.AnswerDataInjective | bot.py:47 | different (question, option) pairs give different callback data |
| Callback.AnswerDataShape | bot.py:238 | answer data starts with `answer_`, so it reaches the answer handler, and it decodes to its own pair |
| Callback.QuizKeyboard | bot.py:40-50 | one button per option, the i-th labelled with option i; its data starts with `answer_` and decodes to `(q, i)` |
| Callback.QuizKeyboardData | bot.py:47 | the i-th button's data is exactly `answer_{q}_{i}` |
| Bot.GreetingName | bot.py:109 | `first_name or "Друг"` is never empty and is the first name whenever there is one |
| Bot.CurrentOrZero | bot.py:320 | `user_results.get(user_id, {}).get("current_question", 0)` is the counter of the record, or 0 without one |
| Bot.CmdStart | bot.py:105-115 | progress becomes exactly `(0, 0, [])`; the FSM state is unchanged; the greeting is shown |
| Bot.ShowQuestion | bot.py:144-163 | progress is unchanged. At counter 2 it shows the intermediate screen with state `waiting_intermediate`. Otherwise, at or past the bank size, it shows the final screen with the state cleared. Otherwise it shows the question at the counter with its keyboard, state unchanged. A user without a record raises KeyError |
| Bot.ShowIntermediate | bot.py:192-194 | sets `waiting_intermediate` and shows exactly the intermediate screen; progress is unchanged and nothing is raised |
| Bot.ShowFinal | bot.py:215-217 | clears the FSM state and shows exactly the final screen; progress is unchanged and nothing is raised |
| Bot.StartQuiz | bot.py:130-141 | progress becomes exactly `(0, 0, [])`. With a non-empty bank the state is `waiting_for_answer` and question 0 is shown; with an empty bank the final screen is shown and the state cleared |
| Bot.ProcessAnswer | bot.py:238-270 | a bad payload raises ValueError, a bad index IndexError, and a missing record KeyError, each with nothing changed. Otherwise exactly one entry is appended and the counter moves on by one, whatever question the button names. The right-answer count goes up iff the option is `correct`. The follow-up text is `responses[answer]`, or `"Ответ обработан"` when absent. Then the show_question dispatch runs on the new counter |
| Bot.SkipIntermediate | bot.py:273-289 | progress is unchanged. At or past the bank size: the final screen, state cleared. Otherwise: the question at the counter, with no threshold check, state `waiting_for_answer`. A missing record raises KeyError after the state was set |
| Bot.ContinueQuiz | bot.py:316-329 | shows the intermediate screen exactly when the counter (0 for a missing user) is 2. Otherwise it sets `waiting_for_answer` and runs show_question, which raises KeyError for a missing user |
| Bot.AskGptIntermediate | bot.py:332-344 | sets `asking_gpt` and shows exactly one prompt, whose cancel button is `continue_quiz`; progress is unchanged and nothing is raised |
| Bot.AskGptHandler | bot.py:347-359 | sets `asking_gpt` and shows exactly one prompt, whose cancel button is `cancel_gpt`; progress is unchanged and nothing is raised |
| Bot.CancelGpt | bot.py:362-371 | clears the FSM state and shows exactly the cancellation message; progress is unchanged and nothing is raised |
| Bot.BackData | bot.py:391-404 | the button under a GPT reply is `continue_quiz` exactly when the counter (0 without a record) is 2, and `start_quiz` otherwise |
| Bot.ProcessGptQuestion | bot.py:374-429 | a missing, empty or whitespace-only text changes nothing and asks again. Otherwise progress is unchanged. The state becomes `waiting_intermediate` iff the counter (0 when missing) is 2, else it is cleared, whether the call succeeded or raised. The reply shows the question and the answer, or the error screen; a shown answer has no `*` |
| Bot.AnswerScreen | bot.py:407-429 | the edited processing message shows the question and the answer when ask_yandex_gpt returned, and the error text when it raised, with the given back button in both cases |
| Bot.AfterGpt | bot.py:393-404 | once the model was asked, progress is unchanged, the state is `waiting_intermediate` exactly when the counter is 2 and cleared otherwise, and the processing message is followed by the reply screen |
| Bot.Handle | bot.py:105-438 | data starting with `answer_` goes to the answer handler (bot.py:238); a text outside `asking_gpt` gets the "use /start" reply with nothing changed |
| Bot.Deliver | bot.py:36-37 | an event from one user changes only that user's session |
| BotProperties.Routing | bot.py:130-363 | each fixed callback string reaches its own handler |
| BotProperties.MessageRouting | bot.py:105-438 | the routes the filters leave: /start runs cmd_start in any state (bot.py:105), a text while `asking_gpt` runs process_gpt_question (bot.py:374), and callback data no filter matches changes nothing and shows nothing |
| BotProperties.RouteSkip | bot.py:273-274 | the "skip_intermediate" button is taken by the skip handler and by no answer handler |
| BotProperties.RouteContinue | bot.py:316-317 | the "continue_quiz" button is taken by the continue handler and by no answer handler |
| BotProperties.RouteAskGptIntermediate | bot.py:332-333 | the "ask_gpt_intermediate" button is taken by the intermediate question handler and by no answer handler |
| BotProperties.RouteAskGpt | bot.py:347-348 | the "ask_gpt" button is taken by `ask_gpt_handler` and by no answer handler |
| BotProperties.RouteCancel | bot.py:362-363 | the "cancel_gpt" button is taken by `cancel_gpt` and by no answer handler |
| BotProperties.HandleKeepsTally | bot.py:246-267 | every event keeps a consistent record consistent |
| BotProperties.RunKeepsTally | bot.py:111-267 | a consistent record stays consistent over any sequence of events |
| BotProperties.RunFromNewSession | bot.py:250-257 | starting from an unseen user, after any events, `correct_answers` equals the number of correct entries and is at most `len(answers)`, and `current_question == len(answers)` |
| BotProperties.HandleProgressEffect | bot.py:111-267 | /start and the start button write exactly the fresh record. An answer button either changes nothing or advances the counter by one and appends one entry, keeping the old log as a prefix. Every other event leaves the record alone |
| BotProperties.AnswerProgressEffect | bot.py:242-267 | the answer handler either leaves the record alone or advances the counter by one and appends one entry after the old log |
| BotProperties.AnswerButton | bot.py:242-270 | pressing option `a` of any bank question `q` logs `(q, a)` and shows the follow-up text and then the dispatch screen |
| BotProperties.StaleButtonAdvances | bot.py:242-267 | a button of an earlier question still advances the counter; pressing it twice logs two entries |
| BotProperties.PressShownButton | bot.py:160-163 | pressing the i-th button of a shown question answers that question with option i |
| BotProperties.IntermediateBeforeFinal | bot.py:151-158 | at counter 2 the intermediate screen wins even when the bank has at most two questions |
| BotProperties.SkipAtThreshold | bot.py:277-289 | skipping at counter 2 shows question 2 itself, in state `waiting_for_answer`, with progress unchanged |
| BotProperties.GptDetourFromIntermediate | bot.py:316-399 | from the intermediate screen, asking and then sending a question returns to `waiting_intermediate` with a `continue_quiz` button. Pressing it shows the intermediate screen again, and progress never changes |
| BotProperties.AskThenCancel | bot.py:347-371 | from any session, pressing "ask_gpt" and then the prompt's cancel button shows the cancellation message, clears the state and leaves progress as it was |
| BotProperties.AskIntermediateThenCancel | bot.py:316-344 | at counter 2, pressing "ask_gpt_intermediate" and then the prompt's cancel button shows the intermediate screen again in `waiting_intermediate`, with progress as it was |
| BotProperties.Walkthrough | bot.py:105-289 | in a five-question bank answered right throughout, the screens are greeting, Q0, Q1, the intermediate screen, Q2 after skip, Q3, Q4, then final. The state ends cleared with counter 5 and five right answers |
| BotProperties.StartSteps | bot.py:105-141 | for an unseen user, /start shows the greeting, and the start button then shows question 0 with a fresh record in `waiting_for_answer` |
| BotProperties.SkipStep | bot.py:273-289 | at counter 2 of a five-question bank, skipping shows question 2 in `waiting_for_answer` with progress unchanged |
| BotProperties.RightAnswer | bot.py:246-270 | the right answer at counter k moves both counters from k to k+1, then shows the follow-up text and the dispatch screen for k+1 |
| BotProperties.CorrectAnswerStep | bot.py:246-270 | a right answer at counter 0, 2 or 3 of a five-question bank shows the follow-up text and then the next question, staying in `waiting_for_answer` |
| BotProperties.IntermediateAnswerStep | bot.py:246-270 | the right answer to question 1 shows the follow-up text and then the intermediate screen, in `waiting_intermediate` |
| BotProperties.FinalAnswerStep | bot.py:246-270 | the right answer to the last question shows the follow-up text and then the final screen, with the state cleared and five right answers |
| BotProperties.ShowAfterAnswer | bot.py:151-163 | in a five-question bank the dispatch shows the intermediate screen at counter 2, the final screen at 5, and otherwise the question at the counter |

## Left out

- Rendering is left out. `send_photo`, `edit_text`/`answer`, the image-file checks and the try/except re-render paths are framework I/O; only the abstract screen is modelled. The question text, images and button labels of the fixed keyboards are not kept.
- Failed message delivery is left out. The model assumes the sends succeed. In the source, if sending the follow-up text at bot.py:263-264 raised, the answer would be logged but the counter would not advance.
- `asyncio.sleep(1)`, logging, the dispatcher object, `main` and polling are plumbing.
- Concurrency is left out: each handler runs to completion on its own, and races between handlers on `user_results` are ignored.
- FSM storage keys: aiogram keys the FSM state by chat and user, but the model keys it by user alone, as `user_results` is. For a private chat the two are the same.
- The framework's filters are taken as given. The `Command("start")` filter is reflected in the `StartCommand` event, and a message without text is `Text(None)`. A callback query without data is not modelled.
- `requests.post` is the `post` parameter. The transport's own handling of headers, for example dropping a header whose value is None, is not modelled. The float `temperature` is an uninterpreted real.
- config.py is not part of this model. Environment loading, number parsing and the `BOT_TOKEN` start-up check are left out; the settings are a `Config` value.
- gpt_requests.py is not part of this model. The bot does not use it.
- quiz_data.py is not part of this model; the bank is a parameter.
- The Russian UI wording is left out, except for the default follow-up text, the fallback text, the system prompt and the default greeting name.
- Builtins.ParseInt: does not accept non-ASCII decimal digits, which Python's `int()` does accept. Underscores between digits, which `int()` also accepts, cannot reach it after the split on `_`. The limit of 4300 digits that Python 3.11 and later put on `int()` of a str is not modelled: a longer number parses here, while the source raises ValueError. Only a forged callback can carry such data.

=== FILE: bot.dfy ===
/** The quiz bot's handlers as pure transitions over one user's session.
    Each handler takes the session and returns a Step: the new session,
    the screens shown (in order), and the exception that ended the handler,
    if one did. Effects made before such an exception are kept, as they are
    in the running program. Rendering is reduced to an abstract Screen. */
module Bot {
  import opened Wrappers
  import opened Builtins
  import opened Quiz
  import opened Callback
  import YandexGpt

  /** The FSM state of a user. Idle stands for "no state": before any
      `set_state` and after `state.clear()`. */
  datatype Mode = Idle | WaitingForAnswer | WaitingIntermediate | AskingGpt

  /** What the bot holds for one user: the `user_results` entry (absent until
      /start or the start button) and the FSM state, kept separately. */
  datatype Session = Session(progress: Option<Progress>, mode: Mode)

  /** A user the bot has never seen. */
  const NewSession: Session := Session(None, Idle)

  /** What a handler shows, without its wording, images or layout. */
  datatype Screen =
    | Greeting(name: string)                       // /start: greeting and the start button
    | Question(index: nat, buttons: seq<Button>)   // a quiz question with its answer buttons
    | Intermediate                                 // the screen after the second question
    | Final                                        // the closing screen with the restart button
    | Response(text: string)                       // the follow-up text of an answer
    | Prompt(cancelData: string)                   // "ask your question", with a cancel button
    | RetryPrompt                                  // "please ask your question as text"
    | Processing                                   // "processing your question"
    | GptReply(question: string, answer: string, backData: string)
    | GptFailure(backData: string)                 // the model could not be asked
    | Cancelled                                    // "action cancelled", with the start button
    | UseStart                                     // "use /start", with the start button

  /** The outcome of one handler. */
  datatype Step = Step(session: Session, screens: seq<Screen>, raised: Option<PyError>)

  /** An update from the chat platform. Whether a message is the /start
      command is decided by the framework's command filter. */
  datatype Event = StartCommand(firstName: string) | Pressed(data: string) | Text(text: Option<string>)

  const StartQuizData: string := "start_quiz"
  const SkipIntermediateData: string := "skip_intermediate"
  const ContinueQuizData: string := "continue_quiz"
  const AskGptIntermediateData: string := "ask_gpt_intermediate"
  const AskGptData: string := "ask_gpt"
  const CancelGptData: string := "cancel_gpt"

  /** `first_name or "Друг"`; an absent name is the empty string here. */
  function GreetingName(firstName: string): (r: string)
    ensures r != ""
    ensures firstName != "" ==> r == firstName
  {
    if firstName == "" then "Друг" else firstName
  }

  /** `user_results.get(user_id, {}).get("current_question", 0)` */
  function CurrentOrZero(s: Session): (r: nat)
    ensures s.progress.Some? ==> r == s.progress.value.current
    ensures s.progress.None? ==> r == 0
  {
    match s.progress
    case None => 0
    case Some(p) => p.current
  }

  /** The question screen for index `i`, with the keyboard of its options. */
  function QuestionScreen(bank: Bank, i: nat): Screen
    requires i < |bank|
  {
    Question(i, QuizKeyboard(i, bank[i].options))
  }

  // ---------------------------------------------------------------------
  // Handlers

  /** cmd_start: a fresh progress record and the greeting; the FSM state is not touched. */
  function CmdStart(s: Session, firstName: string): (r: Step)
    ensures r.session.progress == Some(Fresh)
    ensures r.session.mode == s.mode
    ensures r.screens == [Greeting(GreetingName(firstName))] && r.raised.None?
  {
    Step(Session(Some(Fresh), s.mode), [Greeting(GreetingName(firstName))], None)
  }

  /** show_intermediate_screen: state waiting_intermediate and the
      intermediate screen; progress is not looked at. */
  function ShowIntermediate(s: Session): (r: Step)
    ensures r.session.progress == s.progress
    ensures r.session.mode == WaitingIntermediate
    ensures r.screens == [Intermediate] && r.raised.None?
  {
    Step(s.(mode := WaitingIntermediate), [Intermediate], None)
  }

  /** show_final_screen: the state is cleared and the final screen shown;
      progress is kept. */
  function ShowFinal(s: Session): (r: Step)
    ensures r.session.progress == s.progress
    ensures r.session.mode == Idle
    ensures r.screens == [Final] && r.raised.None?
  {
    Step(s.(mode := Idle), [Final], None)
  }

  /** show_question: the intermediate screen when the counter is at the
      threshold (checked first, whatever the bank size), else the final
      screen once the counter reaches the bank size, else the question at the
      counter. Progress is never changed; a user without a record raises
      KeyError. */
  function ShowQuestion(bank: Bank, s: Session): (r: Step)
    ensures r.session.progress == s.progress
    ensures s.progress.None? ==> r == Step(s, [], Some(KeyError))
    ensures s.progress.Some? ==> r.raised.None? && |r.screens| == 1
    ensures s.progress.Some? ==>
      var cur := s.progress.value.current;
      && (r.screens[0] == Intermediate <==> cur == IntermediateAt)
      && (r.screens[0] == Final <==> cur != IntermediateAt && cur >= |bank|)
      && (r.screens[0].Question? <==> cur != IntermediateAt && cur < |bank|)
    ensures s.progress.Some? && r.screens[0] == Intermediate ==> r.session.mode == WaitingIntermediate
    ensures s.progress.Some? && r.screens[0] == Final ==> r.session.mode == Idle
    ensures s.progress.Some? && r.screens[0].Question? ==>
      var cur := s.progress.value.current;
      cur < |bank| && r.screens[0] == QuestionScreen(bank, cur) && r.session.mode == s.mode
  {
    match s.progress
    case None => Step(s, [], Some(KeyError))
    case Some(p) =>
      if p.current == IntermediateAt then ShowIntermediate(s)
      else if p.current >= |bank| then ShowFinal(s)
      else Step(s, [QuestionScreen(bank, p.current)], None)
  }

  /** start_quiz: a fresh record, state waiting_for_answer, then the first
      question (or, with an empty bank, the final screen, which clears the state). */
  function StartQuiz(bank: Bank, s: Session): (r: Step)
    ensures r.session.progress == Some(Fresh)
    ensures r.raised.None?
    ensures |bank| > 0 ==> r.session.mode == WaitingForAnswer && r.screens == [QuestionScreen(bank, 0)]
    ensures |bank| == 0 ==> r.session.mode == Idle && r.screens == [Final]
  {
    ShowQuestion(bank, Session(Some(Fresh), WaitingForAnswer))
  }

  /** process_answer: decode the button, look the question up by the index
      the button carries (Python indexing, so a negative index counts from
      the end), log the answer, count it if right, show its follow-up text,
      move the counter on and dispatch as show_question does. The index is
      never compared with the user's counter, and the FSM state is not
      consulted. Decoding errors, a bad index and a missing record raise
      before anything changes. */
  function ProcessAnswer(bank: Bank, s: Session, data: string): (r: Step)
    ensures DecodeAnswer(data).Err? ==> r == Step(s, [], Some(ValueError))
    ensures DecodeAnswer(data).Ok? && PyIndex(bank, DecodeAnswer(data).value.0).None? ==>
      r == Step(s, [], Some(IndexError))
    ensures DecodeAnswer(data).Ok? && PyIndex(bank, DecodeAnswer(data).value.0).Some? && s.progress.None? ==>
      r == Step(s, [], Some(KeyError))
    ensures DecodeAnswer(data).Ok? && PyIndex(bank, DecodeAnswer(data).value.0).Some? && s.progress.Some? ==>
      var (qnum, a) := DecodeAnswer(data).value;
      var question := PyIndex(bank, qnum).value;
      var p := s.progress.value;
      && r.raised.None?
      && r.session.progress.Some?
      && var p' := r.session.progress.value;
      && p'.current == p.current + 1
      && p'.answers == p.answers + [Entry(qnum, a, a == question.correct)]
      && (a == question.correct ==> p'.correctAnswers == p.correctAnswers + 1)
      && (a != question.correct ==> p'.correctAnswers == p.correctAnswers)
      && |r.screens| == 2
      && r.screens[0] == Response(if a in question.responses then question.responses[a] else DefaultResponse)
      && var next := ShowQuestion(bank, Session(Some(p'), s.mode));
      && r.session == next.session && r.screens[1..] == next.screens
  {
    match DecodeAnswer(data)
    case Err(e) => Step(s, [], Some(e))
    case Ok((qnum, a)) =>
      match PyIndex(bank, qnum)
      case None => Step(s, [], Some(IndexError))
      case Some(question) =>
        match s.progress
        case None => Step(s, [], Some(KeyError))
        case Some(p) =>
          var next := ShowQuestion(bank, s.(progress := Some(RecordAnswer(p, question, qnum, a))));
          var r := next.(screens := [Response(ResponseText(question, a))] + next.screens);
          assert r.screens[1..] == next.screens;
          r
  }

  /** skip_intermediate: state waiting_for_answer, then the question at the
      counter or, past the end of the bank, the final screen; the threshold
      check of show_question is skipped and the counter is not moved. */
  function SkipIntermediate(bank: Bank, s: Session): (r: Step)
    ensures r.session.progress == s.progress
    ensures s.progress.None? ==> r == Step(s.(mode := WaitingForAnswer), [], Some(KeyError))
    ensures s.progress.Some? && s.progress.value.current >= |bank| ==>
      r == Step(s.(mode := Idle), [Final], None)
    ensures s.progress.Some? && s.progress.value.current < |bank| ==>
      r == Step(s.(mode := WaitingForAnswer), [QuestionScreen(bank, s.progress.value.current)], None)
  {
    var s1 := s.(mode := WaitingForAnswer);
    match s1.progress
    case None => Step(s1, [], Some(KeyError))
    case Some(p) =>
      if p.current >= |bank| then ShowFinal(s1)
      else Step(s1, [QuestionScreen(bank, p.current)], None)
  }

  /** continue_quiz: back to the intermediate screen exactly when the
      counter (0 for a user without a record) is at the threshold; otherwise
      state waiting_for_answer and show_question, which raises KeyError for
      a user without a record after the state was set. */
  function ContinueQuiz(bank: Bank, s: Session): (r: Step)
    ensures r.session.progress == s.progress
    ensures r.screens == [Intermediate] <==> CurrentOrZero(s) == IntermediateAt
    ensures CurrentOrZero(s) == IntermediateAt ==> r.session.mode == WaitingIntermediate && r.raised.None?
    ensures CurrentOrZero(s) != IntermediateAt ==> r == ShowQuestion(bank, s.(mode := WaitingForAnswer))
    ensures s.progress.None? ==> r == Step(s.(mode := WaitingForAnswer), [], Some(KeyError))
  {
    if CurrentOrZero(s) == IntermediateAt then ShowIntermediate(s.(mode := WaitingIntermediate))
    else ShowQuestion(bank, s.(mode := WaitingForAnswer))
  }

  /** ask_gpt_intermediate: state asking_gpt and a prompt whose cancel button continues the quiz. */
  function AskGptIntermediate(s: Session): (r: Step)
    ensures r.session.progress == s.progress
    ensures r.session.mode == AskingGpt
    ensures |r.screens| == 1 && r.screens[0].Prompt? && r.screens[0].cancelData == ContinueQuizData
    ensures r.raised.None?
  {
    Step(s.(mode := AskingGpt), [Prompt(ContinueQuizData)], None)
  }

  /** ask_gpt_handler: state asking_gpt and a prompt whose cancel button is cancel_gpt. */
  function AskGptHandler(s: Session): (r: Step)
    ensures r.session.progress == s.progress
    ensures r.session.mode == AskingGpt
    ensures |r.screens| == 1 && r.screens[0].Prompt? && r.screens[0].cancelData == CancelGptData
    ensures r.raised.None?
  {
    Step(s.(mode := AskingGpt), [Prompt(CancelGptData)], None)
  }

  /** cancel_gpt: the state is cleared; progress is kept. */
  function CancelGpt(s: Session): (r: Step)
    ensures r.session.progress == s.progress
    ensures r.session.mode == Idle
    ensures r.screens == [Cancelled] && r.raised.None?
  {
    Step(s.(mode := Idle), [Cancelled], None)
  }

  /** `not question or len(question.strip()) == 0`, stated without strip(). */
  predicate Blank(text: Option<string>) {
    text.None? || AllSpace(text.value)
  }

  /** Where the user goes after a question to the model: back to the
      intermediate screen at the threshold, otherwise to the start. */
  function BackData(s: Session): (r: string)
    ensures r == ContinueQuizData <==> CurrentOrZero(s) == IntermediateAt
    ensures r == ContinueQuizData || r == StartQuizData
  {
    if CurrentOrZero(s) == IntermediateAt then ContinueQuizData else StartQuizData
  }

  /** process_gpt_question: a blank text changes nothing and asks again;
      otherwise the model is asked, the state becomes waiting_intermediate
      exactly when the counter (0 without a record) is at the threshold and
      is cleared otherwise, whether the answer came back or the call raised. */
  function ProcessGptQuestion(cfg: YandexGpt.Config, post: YandexGpt.HttpRequest -> YandexGpt.Reply,
                              s: Session, text: Option<string>): (r: Step)
    ensures Blank(text) ==> r == Step(s, [RetryPrompt], None)
    ensures !Blank(text) ==>
      && r.session.progress == s.progress
      && (r.session.mode == WaitingIntermediate <==> CurrentOrZero(s) == IntermediateAt)
      && (CurrentOrZero(s) != IntermediateAt ==> r.session.mode == Idle)
      && r.raised.None? && |r.screens| == 2 && r.screens[0] == Processing
    ensures !Blank(text) ==>
      var answer := YandexGpt.AskYandexGpt(cfg, text.value, post);
      && (answer.Ok? ==> r.screens[1] == GptReply(text.value, answer.value, BackData(s)))
      && (answer.Err? ==> r.screens[1] == GptFailure(BackData(s)))
    ensures |r.screens| == 2 && r.screens[1].GptReply? ==> '*' !in r.screens[1].answer
  {
    if text.None? || |Strip(text.value)| == 0 then Step(s, [RetryPrompt], None)
    else
      AfterGpt(s, text.value, YandexGpt.AskYandexGpt(cfg, text.value, post))
  }

  /** The state and screens once the model has been asked: back to
      waiting_intermediate at the threshold, cleared otherwise. */
  function AfterGpt(s: Session, question: string, answer: Result<string, PyError>): (r: Step)
    ensures r.session.progress == s.progress
    ensures r.session.mode == WaitingIntermediate <==> CurrentOrZero(s) == IntermediateAt
    ensures CurrentOrZero(s) != IntermediateAt ==> r.session.mode == Idle
    ensures r.raised.None? && r.screens == [Processing, AnswerScreen(question, answer, BackData(s))]
  {
    var mode := if CurrentOrZero(s) == IntermediateAt then WaitingIntermediate else Idle;
    Step(s.(mode := mode), [Processing, AnswerScreen(question, answer, BackData(s))], None)
  }

  /** The edited "processing" message: the question and the answer, or the
      error text when ask_yandex_gpt raised. */
  function AnswerScreen(question: string, answer: Result<string, PyError>, back: string): (sc: Screen)
    ensures answer.Ok? ==> sc == GptReply(question, answer.value, back)
    ensures answer.Err? ==> sc == GptFailure(back)
  {
    match answer
    case Ok(a) => GptReply(question, a, back)
    case Err(_) => GptFailure(back)
  }

  // ---------------------------------------------------------------------
  // Routing, the per-user store, and runs

  /** The dispatcher: callback filters in registration order (an unmatched
      callback has no handler), then message handlers in registration
      order: the /start command, free text while asking_gpt, anything else. */
  function Handle(bank: Bank, cfg: YandexGpt.Config, post: YandexGpt.HttpRequest -> YandexGpt.Reply,
                  s: Session, ev: Event): (r: Step)
    ensures ev.Pressed? && AnswerPrefix <= ev.data ==> r == ProcessAnswer(bank, s, ev.data)
    ensures ev.Text? && s.mode != AskingGpt ==> r == Step(s, [UseStart], None)
  {
    match ev
    case StartCommand(name) => CmdStart(s, name)
    case Pressed(data) =>
      if data == StartQuizData then StartQuiz(bank, s)
      else if AnswerPrefix <= data then ProcessAnswer(bank, s, data)
      else if data == SkipIntermediateData then SkipIntermediate(bank, s)
      else if data == ContinueQuizData then ContinueQuiz(bank, s)
      else if data == AskGptIntermediateData then AskGptIntermediate(s)
      else if data == AskGptData then AskGptHandler(s)
      else if data == CancelGptData then CancelGpt(s)
      else Step(s, [], None)
    case Text(text) =>
      if s.mode == AskingGpt then ProcessGptQuestion(cfg, post, s, text)
      else Step(s, [UseStart], None)
  }

  type UserId = int

  /** `user_results` together with the FSM storage, keyed by user. */
  type Store = map<UserId, Session>

  function SessionOf(st: Store, u: UserId): Session {
    if u in st then st[u] else NewSession
  }

  /** Deliver one event from user `u`: only that user's session changes. */
  function Deliver(bank: Bank, cfg: YandexGpt.Config, post: YandexGpt.HttpRequest -> YandexGpt.Reply,
                   st: Store, u: UserId, ev: Event): (r: Store)
    ensures SessionOf(r, u) == Handle(bank, cfg, post, SessionOf(st, u), ev).session
    ensures forall v :: v != u ==> SessionOf(r, v) == SessionOf(st, v)
  {
    st[u := Handle(bank, cfg, post, SessionOf(st, u), ev).session]
  }

  /** One user's handler, as a step function of the session and the event. */
  function Handler(bank: Bank, cfg: YandexGpt.Config, post: YandexGpt.HttpRequest -> YandexGpt.Reply): (Session, Event) -> Step {
    (s: Session, ev: Event) => Handle(bank, cfg, post, s, ev)
  }

  /** The session after a sequence of events, each applied by `step` to the
      session the previous one left. */
  function RunWith(step: (Session, Event) -> Step, s: Session, evs: seq<Event>): Session
    decreases |evs|
  {
    if |evs| == 0 then s
    else RunWith(step, step(s, evs[0]).session, evs[1..])
  }

  /** The steps of such a run, one per event; the last one leaves the
      session the run ends in. */
  function TraceWith(step: (Session, Event) -> Step, s: Session, evs: seq<Event>): (t: seq<Step>)
    ensures |t| == |evs|
    ensures |evs| > 0 ==> t[|evs| - 1].session == RunWith(step, s, evs)
    decreases |evs|
  {
    if |evs| == 0 then []
    else
      var first := step(s, evs[0]);
      [first] + TraceWith(step, first.session, evs[1..])
  }

  /** The session after a sequence of events, handled one after the other. */
  function Run(bank: Bank, cfg: YandexGpt.Config, post: YandexGpt.HttpRequest -> YandexGpt.Reply,
               s: Session, evs: seq<Event>): Session
  {
    RunWith(Handler(bank, cfg, post), s, evs)
  }

  /** The steps of a run: each event handled in the session the previous one left. */
  function Trace(bank: Bank, cfg: YandexGpt.Config, post: YandexGpt.HttpRequest -> YandexGpt.Reply,
                 s: Session, evs: seq<Event>): (t: seq<Step>)
    ensures |t| == |evs|
    ensures |evs| > 0 ==> t[|evs| - 1].session == Run(bank, cfg, post, s, evs)
  {
    TraceWith(Handler(bank, cfg, post), s, evs)
  }
}

=== FILE: bot_properties.dfy ===
/** Properties of the bot relating several handler calls: the progress
    invariant over any run, what each kind of event may do to progress,
    the absence of a staleness check on answer buttons, and the walk
    through the whole quiz. */
module BotProperties {
  import opened Wrappers
  import opened Builtins
  import opened Quiz
  import opened Callback
  import opened Bot
  import YandexGpt

  /** The session's record, if there is one, is consistent. */
  predicate SessionTallied(s: Session) {
    s.progress.Some? ==> Tallied(s.progress.value)
  }

  /** Every handler keeps the record consistent: resets write a consistent
      record, an answer logs one entry and counts it if right, and the other
      handlers leave the record alone. */
  lemma HandleKeepsTally(bank: Bank, cfg: YandexGpt.Config, post: YandexGpt.HttpRequest -> YandexGpt.Reply,
                         s: Session, ev: Event)
    requires SessionTallied(s)
    ensures SessionTallied(Handle(bank, cfg, post, s, ev).session)
  {
    FreshTallied();
    if ev.Pressed? && ev.data != StartQuizData && AnswerPrefix <= ev.data {
      var d := DecodeAnswer(ev.data);
      if d.Ok? && PyIndex(bank, d.value.0).Some? && s.progress.Some? {
        RecordPreservesTally(s.progress.value, PyIndex(bank, d.value.0).value, d.value.0, d.value.1);
      }
    }
  }

  /** The record stays consistent over any sequence of events. */
  lemma {:induction false} RunKeepsTally(bank: Bank, cfg: YandexGpt.Config, post: YandexGpt.HttpRequest -> YandexGpt.Reply,
                                         s: Session, evs: seq<Event>)
    requires SessionTallied(s)
    ensures SessionTallied(Run(bank, cfg, post, s, evs))
    decreases |evs|
  {
    if |evs| > 0 {
      HandleKeepsTally(bank, cfg, post, s, evs[0]);
      RunKeepsTally(bank, cfg, post, Handle(bank, cfg, post, s, evs[0]).session, evs[1..]);
    }
  }

  /** From a user the bot has never seen, through any events: the right
      answer count equals the number of entries marked correct, so it never
      exceeds the number of answers, and the counter equals the number of answers. */
  lemma RunFromNewSession(bank: Bank, cfg: YandexGpt.Config, post: YandexGpt.HttpRequest -> YandexGpt.Reply,
                          evs: seq<Event>)
    ensures var r := Run(bank, cfg, post, NewSession, evs);
      r.progress.Some? ==>
        && r.progress.value.correctAnswers == CountCorrect(r.progress.value.answers)
        && r.progress.value.correctAnswers <= |r.progress.value.answers|
        && r.progress.value.current == |r.progress.value.answers|
  {
    RunKeepsTally(bank, cfg, post, NewSession, evs);
    var r := Run(bank, cfg, post, NewSession, evs);
    if r.progress.Some? {
      TalliedBound(r.progress.value);
    }
  }

  /** What one event may do to the record: /start and the start button
      write a fresh record; an answer button either changes nothing or
      advances the counter by one and appends one entry; every other event
      leaves the record as it was. */
  lemma HandleProgressEffect(bank: Bank, cfg: YandexGpt.Config, post: YandexGpt.HttpRequest -> YandexGpt.Reply,
                             s: Session, ev: Event)
    ensures var r := Handle(bank, cfg, post, s, ev).session;
      && (ev.StartCommand? || ev == Pressed(StartQuizData) ==> r.progress == Some(Fresh))
      && (ev.Pressed? && AnswerPrefix <= ev.data ==>
            r.progress == s.progress
            || (&& s.progress.Some? && r.progress.Some?
                && r.progress.value.current == s.progress.value.current + 1
                && |r.progress.value.answers| == |s.progress.value.answers| + 1
                && r.progress.value.answers[..|s.progress.value.answers|] == s.progress.value.answers))
      && (!ev.StartCommand? && ev != Pressed(StartQuizData) && !(ev.Pressed? && AnswerPrefix <= ev.data) ==>
            r.progress == s.progress)
  {
    if ev.Pressed? && AnswerPrefix <= ev.data {
      AnswerProgressEffect(bank, s, ev.data);
    }
  }

  /** What an answer button may do to the record: nothing, or one more step
      of the counter and one more entry after the old log. */
  lemma AnswerProgressEffect(bank: Bank, s: Session, data: string)
    ensures var r := ProcessAnswer(bank, s, data).session;
      r.progress == s.progress
      || (&& s.progress.Some? && r.progress.Some?
          && r.progress.value.current == s.progress.value.current + 1
          && |r.progress.value.answers| == |s.progress.value.answers| + 1
          && r.progress.value.answers[..|s.progress.value.answers|] == s.progress.value.answers)
  {
    var d := DecodeAnswer(data);
    if d.Ok? && PyIndex(bank, d.value.0).Some? && s.progress.Some? {
      var r := ProcessAnswer(bank, s, data).session;
      assert r.progress.value.answers[..|s.progress.value.answers|] == s.progress.value.answers;
    }
  }

  /** Pressing the button of option `a` of question `q` (any index into the
      bank, whether or not it is the user's current question) logs
      `(q, a)`, moves the counter on by one and shows the follow-up text. */
  lemma AnswerButton(bank: Bank, cfg: YandexGpt.Config, post: YandexGpt.HttpRequest -> YandexGpt.Reply,
                     s: Session, q: nat, a: nat)
    requires q < |bank| && s.progress.Some?
    ensures var r := Handle(bank, cfg, post, s, Pressed(AnswerData(q, a)));
      && r.raised.None?
      && r.session.progress == Some(RecordAnswer(s.progress.value, bank[q], q, a))
      && r.screens == [Response(ResponseText(bank[q], a))]
                      + ShowQuestion(bank, Session(Some(RecordAnswer(s.progress.value, bank[q], q, a)), s.mode)).screens
      && r.session == ShowQuestion(bank, Session(Some(RecordAnswer(s.progress.value, bank[q], q, a)), s.mode)).session
  {
    AnswerDataShape(q, a);
    var r := Handle(bank, cfg, post, s, Pressed(AnswerData(q, a)));
    assert r.screens == [r.screens[0]] + r.screens[1..];
  }

  /** No staleness check: a button of an earlier question still advances
      the counter, and pressing the same button twice logs two answers. */
  lemma StaleButtonAdvances(bank: Bank, cfg: YandexGpt.Config, post: YandexGpt.HttpRequest -> YandexGpt.Reply,
                            s: Session, q: nat, a: nat)
    requires q < |bank| && s.progress.Some? && q < s.progress.value.current
    ensures var s1 := Handle(bank, cfg, post, s, Pressed(AnswerData(q, a))).session;
      var s2 := Handle(bank, cfg, post, s1, Pressed(AnswerData(q, a))).session;
      && s2.progress.Some?
      && s2.progress.value.current == s.progress.value.current + 2
      && s2.progress.value.answers == s.progress.value.answers + [Entry(q, a, a == bank[q].correct), Entry(q, a, a == bank[q].correct)]
  {
    AnswerButton(bank, cfg, post, s, q, a);
    var s1 := Handle(bank, cfg, post, s, Pressed(AnswerData(q, a))).session;
    AnswerButton(bank, cfg, post, s1, q, a);
  }

  /** Pressing the i-th button of a question screen answers that question
      with option i. */
  lemma PressShownButton(bank: Bank, cfg: YandexGpt.Config, post: YandexGpt.HttpRequest -> YandexGpt.Reply,
                         s: Session, i: nat)
    requires s.progress.Some?
    requires ShowQuestion(bank, s).screens[0].Question?
    requires i < |ShowQuestion(bank, s).screens[0].buttons|
    ensures var shown := ShowQuestion(bank, s);
      var cur := s.progress.value.current;
      && cur < |bank| && i < |bank[cur].options|
      && Handle(bank, cfg, post, shown.session, Pressed(shown.screens[0].buttons[i].data)).session.progress
         == Some(RecordAnswer(s.progress.value, bank[cur], cur, i))
  {
    var cur := s.progress.value.current;
    var shown := ShowQuestion(bank, s);
    QuizKeyboardData(cur, bank[cur].options, i);
    AnswerButton(bank, cfg, post, shown.session, cur, i);
  }

  /** The threshold check comes first: with the counter at 2 the
      intermediate screen appears even when the bank has no more questions. */
  lemma IntermediateBeforeFinal(bank: Bank, s: Session)
    requires s.progress.Some? && s.progress.value.current == IntermediateAt && |bank| <= IntermediateAt
    ensures ShowQuestion(bank, s).screens == [Intermediate]
    ensures ShowQuestion(bank, s).session.mode == WaitingIntermediate
  {
  }

  /** Skipping at the threshold shows question 2 itself, not the intermediate screen again. */
  lemma SkipAtThreshold(bank: Bank, s: Session)
    requires s.progress.Some? && s.progress.value.current == IntermediateAt < |bank|
    ensures SkipIntermediate(bank, s).screens == [QuestionScreen(bank, IntermediateAt)]
    ensures SkipIntermediate(bank, s).session == s.(mode := WaitingForAnswer)
  {
  }

  /** The question detour from the intermediate screen: asking, then
      sending a question, returns to waiting_intermediate with a button back
      to the intermediate screen, which then shows it again; progress is
      untouched throughout. */
  lemma GptDetourFromIntermediate(bank: Bank, cfg: YandexGpt.Config, post: YandexGpt.HttpRequest -> YandexGpt.Reply,
                                  s: Session, question: string)
    requires s.progress.Some? && s.progress.value.current == IntermediateAt
    requires !AllSpace(question)
    ensures var s1 := Handle(bank, cfg, post, s, Pressed(AskGptIntermediateData));
      var s2 := Handle(bank, cfg, post, s1.session, Text(Some(question)));
      var s3 := Handle(bank, cfg, post, s2.session, Pressed(BackData(s2.session)));
      && s1.session.mode == AskingGpt
      && s2.session == s.(mode := WaitingIntermediate)
      && BackData(s2.session) == ContinueQuizData
      && s3.screens == [Intermediate]
      && s3.session == s.(mode := WaitingIntermediate)
  {
    RouteAskGptIntermediate(bank, cfg, post, s);
    var s1 := AskGptIntermediate(s);
    assert s1.session.mode == AskingGpt;
    var s2 := ProcessGptQuestion(cfg, post, s1.session, Some(question));
    assert Handle(bank, cfg, post, s1.session, Text(Some(question))) == s2;
    assert s2.session == s.(mode := WaitingIntermediate);
    RouteContinue(bank, cfg, post, s2.session);
  }

  /** The free question detour: from any session, asking and then pressing
      the prompt's cancel button clears the state and leaves progress as it
      was. */
  lemma AskThenCancel(bank: Bank, cfg: YandexGpt.Config, post: YandexGpt.HttpRequest -> YandexGpt.Reply, s: Session)
    ensures var s1 := Handle(bank, cfg, post, s, Pressed(AskGptData));
      && s1.session.mode == AskingGpt
      && s1.session.progress == s.progress
      && |s1.screens| == 1 && s1.screens[0].Prompt?
      && var s2 := Handle(bank, cfg, post, s1.session, Pressed(s1.screens[0].cancelData));
      && s2.screens == [Cancelled]
      && s2.session == s.(mode := Idle)
      && s2.raised.None?
  {
    RouteAskGpt(bank, cfg, post, s);
    var s1 := AskGptHandler(s);
    RouteCancel(bank, cfg, post, s1.session);
  }

  /** Cancelling the question asked from the intermediate screen goes back
      to that screen, with progress as it was. */
  lemma AskIntermediateThenCancel(bank: Bank, cfg: YandexGpt.Config, post: YandexGpt.HttpRequest -> YandexGpt.Reply, s: Session)
    requires s.progress.Some? && s.progress.value.current == IntermediateAt
    ensures var s1 := Handle(bank, cfg, post, s, Pressed(AskGptIntermediateData));
      && s1.session.mode == AskingGpt
      && s1.session.progress == s.progress
      && |s1.screens| == 1 && s1.screens[0].Prompt?
      && var s2 := Handle(bank, cfg, post, s1.session, Pressed(s1.screens[0].cancelData));
      && s2.screens == [Intermediate]
      && s2.session == s.(mode := WaitingIntermediate)
      && s2.raised.None?
  {
    RouteAskGptIntermediate(bank, cfg, post, s);
    var s1 := AskGptIntermediate(s);
    RouteContinue(bank, cfg, post, s1.session);
  }

  /** The events of a user who answers every question of the bank right,
      skipping the intermediate screen. */
  function RightAnswerEvents(bank: Bank, name: string): seq<Event>
    requires |bank| == 5
    requires forall k :: 0 <= k < |bank| ==> 0 <= bank[k].correct
  {
    EventsToIntermediate(bank, name) + EventsFromIntermediate(bank)
  }

  /** /start, the start button and right answers to questions 0 and 1. */
  function EventsToIntermediate(bank: Bank, name: string): seq<Event>
    requires |bank| == 5
    requires forall k :: 0 <= k < |bank| ==> 0 <= bank[k].correct
  {
    [StartCommand(name), Pressed(StartQuizData),
     Pressed(AnswerData(0, bank[0].correct as nat)), Pressed(AnswerData(1, bank[1].correct as nat))]
  }

  /** The skip button and right answers to questions 2, 3 and 4. */
  function EventsFromIntermediate(bank: Bank): seq<Event>
    requires |bank| == 5
    requires forall k :: 0 <= k < |bank| ==> 0 <= bank[k].correct
  {
    [Pressed(SkipIntermediateData), Pressed(AnswerData(2, bank[2].correct as nat)),
     Pressed(AnswerData(3, bank[3].correct as nat)), Pressed(AnswerData(4, bank[4].correct as nat))]
  }

  /** The walk through a five-question bank answering every question right:
      the greeting, question 0, question 1, the intermediate screen, question
      2 after skipping it, questions 3 and 4, and the final screen with the
      state cleared and all five answers counted. */
  lemma Walkthrough(bank: Bank, cfg: YandexGpt.Config, post: YandexGpt.HttpRequest -> YandexGpt.Reply, name: string)
    requires |bank| == 5
    requires forall k :: 0 <= k < |bank| ==> 0 <= bank[k].correct < |bank[k].options|
    ensures var t := Trace(bank, cfg, post, NewSession, RightAnswerEvents(bank, name));
      && t[0].screens == [Greeting(GreetingName(name))]
      && t[1].screens == [QuestionScreen(bank, 0)]
      && t[2].screens == [Response(ResponseText(bank[0], bank[0].correct)), QuestionScreen(bank, 1)]
      && t[3].screens == [Response(ResponseText(bank[1], bank[1].correct)), Intermediate]
      && t[3].session.mode == WaitingIntermediate
      && t[4].screens == [QuestionScreen(bank, 2)]
      && t[5].screens == [Response(ResponseText(bank[2], bank[2].correct)), QuestionScreen(bank, 3)]
      && t[6].screens == [Response(ResponseText(bank[3], bank[3].correct)), QuestionScreen(bank, 4)]
      && t[7].screens == [Response(ResponseText(bank[4], bank[4].correct)), Final]
      && t[7].session.mode == Idle
      && t[7].session.progress.Some?
      && t[7].session.progress.value.current == 5
      && t[7].session.progress.value.correctAnswers == 5
  {
    var a, b := EventsToIntermediate(bank, name), EventsFromIntermediate(bank);
    TraceAppend(bank, cfg, post, NewSession, a, b);
    WalkToIntermediate(bank, cfg, post, name, a);
    WalkFromIntermediate(bank, cfg, post, Run(bank, cfg, post, NewSession, a), b);
  }

  /** The first half of the walk: /start, the start button and two right answers. */
  lemma WalkToIntermediate(bank: Bank, cfg: YandexGpt.Config, post: YandexGpt.HttpRequest -> YandexGpt.Reply,
                           name: string, evs: seq<Event>)
    requires |bank| == 5
    requires forall k :: 0 <= k < |bank| ==> 0 <= bank[k].correct < |bank[k].options|
    requires evs == EventsToIntermediate(bank, name)
    ensures var t := Trace(bank, cfg, post, NewSession, evs);
      var m := Run(bank, cfg, post, NewSession, evs);
      && t[0].screens == [Greeting(GreetingName(name))]
      && t[1].screens == [QuestionScreen(bank, 0)]
      && t[2].screens == [Response(ResponseText(bank[0], bank[0].correct)), QuestionScreen(bank, 1)]
      && t[3].screens == [Response(ResponseText(bank[1], bank[1].correct)), Intermediate]
      && m.mode == WaitingIntermediate && m.progress.Some?
      && m.progress.value.current == 2 && m.progress.value.correctAnswers == 2
  {
    var s0, s1 := StartSteps(bank, cfg, post, name);
    var s2 := CorrectAnswerStep(bank, cfg, post, s1.session, 0);
    var s3 := IntermediateAnswerStep(bank, cfg, post, s2.session);
    TraceOfSteps(bank, cfg, post, NewSession, evs, [s0, s1, s2, s3]);
  }

  /** The second half of the walk: skipping the intermediate screen and three right answers. */
  lemma WalkFromIntermediate(bank: Bank, cfg: YandexGpt.Config, post: YandexGpt.HttpRequest -> YandexGpt.Reply,
                             m: Session, evs: seq<Event>)
    requires |bank| == 5
    requires forall k :: 0 <= k < |bank| ==> 0 <= bank[k].correct < |bank[k].options|
    requires m.mode == WaitingIntermediate && m.progress.Some?
    requires m.progress.value.current == 2 && m.progress.value.correctAnswers == 2
    requires evs == EventsFromIntermediate(bank)
    ensures var t := Trace(bank, cfg, post, m, evs);
      && t[0].screens == [QuestionScreen(bank, 2)]
      && t[1].screens == [Response(ResponseText(bank[2], bank[2].correct)), QuestionScreen(bank, 3)]
      && t[2].screens == [Response(ResponseText(bank[3], bank[3].correct)), QuestionScreen(bank, 4)]
      && t[3].screens == [Response(ResponseText(bank[4], bank[4].correct)), Final]
      && t[3].session.mode == Idle
      && t[3].session.progress.Some?
      && t[3].session.progress.value.current == 5
      && t[3].session.progress.value.correctAnswers == 5
  {
    var s4 := SkipStep(bank, cfg, post, m);
    var s5 := CorrectAnswerStep(bank, cfg, post, s4.session, 2);
    var s6 := CorrectAnswerStep(bank, cfg, post, s5.session, 3);
    var s7 := FinalAnswerStep(bank, cfg, post, s6.session);
    TraceOfSteps(bank, cfg, post, m, evs, [s4, s5, s6, s7]);
  }

  /** The trace of two runs back to back. */
  lemma TraceAppend(bank: Bank, cfg: YandexGpt.Config, post: YandexGpt.HttpRequest -> YandexGpt.Reply,
                    s: Session, a: seq<Event>, b: seq<Event>)
    ensures Trace(bank, cfg, post, s, a + b) == Trace(bank, cfg, post, s, a) + Trace(bank, cfg, post, Run(bank, cfg, post, s, a), b)
  {
    TraceWithAppend(Handler(bank, cfg, post), s, a, b);
  }

  /** The same for any step function. */
  lemma {:induction false} TraceWithAppend(step: (Session, Event) -> Step, s: Session, a: seq<Event>, b: seq<Event>)
    ensures TraceWith(step, s, a + b) == TraceWith(step, s, a) + TraceWith(step, RunWith(step, s, a), b)
    decreases |a|
  {
    if |a| == 0 {
      assert a + b == b;
    } else {
      assert (a + b)[0] == a[0];
      assert (a + b)[1..] == a[1..] + b;
      TraceWithAppend(step, step(s, a[0]).session, a[1..], b);
    }
  }

  /** A trace is the list of steps in which each event is handled in the
      session the previous step left. */
  lemma {:induction false} TraceOfSteps(bank: Bank, cfg: YandexGpt.Config, post: YandexGpt.HttpRequest -> YandexGpt.Reply,
                                        s: Session, evs: seq<Event>, steps: seq<Step>)
    requires |steps| == |evs| > 0
    requires steps[0] == Handle(bank, cfg, post, s, evs[0])
    requires forall k :: 0 < k < |steps| ==> steps[k] == Handle(bank, cfg, post, steps[k - 1].session, evs[k])
    ensures Trace(bank, cfg, post, s, evs) == steps
    decreases |evs|
  {
    if |evs| > 1 {
      TraceOfSteps(bank, cfg, post, steps[0].session, evs[1..], steps[1..]);
    }
  }

  /** The fixed callback data each reach their own handler. */
  lemma Routing(bank: Bank, cfg: YandexGpt.Config, post: YandexGpt.HttpRequest -> YandexGpt.Reply, s: Session)
    ensures Handle(bank, cfg, post, s, Pressed(StartQuizData)) == StartQuiz(bank, s)
    ensures Handle(bank, cfg, post, s, Pressed(SkipIntermediateData)) == SkipIntermediate(bank, s)
    ensures Handle(bank, cfg, post, s, Pressed(ContinueQuizData)) == ContinueQuiz(bank, s)
    ensures Handle(bank, cfg, post, s, Pressed(AskGptIntermediateData)) == AskGptIntermediate(s)
    ensures Handle(bank, cfg, post, s, Pressed(AskGptData)) == AskGptHandler(s)
    ensures Handle(bank, cfg, post, s, Pressed(CancelGptData)) == CancelGpt(s)
  {
    RouteSkip(bank, cfg, post, s);
    RouteContinue(bank, cfg, post, s);
    RouteAskGptIntermediate(bank, cfg, post, s);
    RouteAskGpt(bank, cfg, post, s);
    RouteCancel(bank, cfg, post, s);
  }

  /** The message handlers and the callbacks no filter takes: /start runs
      cmd_start in any state, a text while asking_gpt runs the GPT question
      handler, and callback data no filter matches changes nothing and
      shows nothing. */
  lemma MessageRouting(bank: Bank, cfg: YandexGpt.Config, post: YandexGpt.HttpRequest -> YandexGpt.Reply,
                       s: Session, ev: Event)
    ensures ev.StartCommand? ==> Handle(bank, cfg, post, s, ev) == CmdStart(s, ev.firstName)
    ensures ev.Text? && s.mode == AskingGpt ==> Handle(bank, cfg, post, s, ev) == ProcessGptQuestion(cfg, post, s, ev.text)
    ensures ev.Pressed? && !(AnswerPrefix <= ev.data)
            && ev.data !in {StartQuizData, SkipIntermediateData, ContinueQuizData,
                            AskGptIntermediateData, AskGptData, CancelGptData}
            ==> Handle(bank, cfg, post, s, ev) == Step(s, [], None)
  {
  }

  lemma RouteAskGpt(bank: Bank, cfg: YandexGpt.Config, post: YandexGpt.HttpRequest -> YandexGpt.Reply, s: Session)
    ensures Handle(bank, cfg, post, s, Pressed(AskGptData)) == AskGptHandler(s)
  {
    assert !(AnswerPrefix <= AskGptData) by { assert AskGptData[1] != AnswerPrefix[1]; }
  }

  lemma RouteCancel(bank: Bank, cfg: YandexGpt.Config, post: YandexGpt.HttpRequest -> YandexGpt.Reply, s: Session)
    ensures Handle(bank, cfg, post, s, Pressed(CancelGptData)) == CancelGpt(s)
  {
    assert !(AnswerPrefix <= CancelGptData) by { assert CancelGptData[0] != AnswerPrefix[0]; }
  }

  lemma RouteSkip(bank: Bank, cfg: YandexGpt.Config, post: YandexGpt.HttpRequest -> YandexGpt.Reply, s: Session)
    ensures Handle(bank, cfg, post, s, Pressed(SkipIntermediateData)) == SkipIntermediate(bank, s)
  {
    assert !(AnswerPrefix <= SkipIntermediateData) by { assert SkipIntermediateData[0] != AnswerPrefix[0]; }
  }

  lemma RouteContinue(bank: Bank, cfg: YandexGpt.Config, post: YandexGpt.HttpRequest -> YandexGpt.Reply, s: Session)
    ensures Handle(bank, cfg, post, s, Pressed(ContinueQuizData)) == ContinueQuiz(bank, s)
  {
    assert !(AnswerPrefix <= ContinueQuizData) by { assert ContinueQuizData[0] != AnswerPrefix[0]; }
  }

  lemma RouteAskGptIntermediate(bank: Bank, cfg: YandexGpt.Config, post: YandexGpt.HttpRequest -> YandexGpt.Reply, s: Session)
    ensures Handle(bank, cfg, post, s, Pressed(AskGptIntermediateData)) == AskGptIntermediate(s)
  {
    assert !(AnswerPrefix <= AskGptIntermediateData) by { assert AskGptIntermediateData[1] != AnswerPrefix[1]; }
  }

  /** /start and then the start button, from a user the bot has never seen. */
  lemma StartSteps(bank: Bank, cfg: YandexGpt.Config, post: YandexGpt.HttpRequest -> YandexGpt.Reply, name: string)
    returns (r0: Step, r1: Step)
    requires |bank| == 5
    ensures r0 == Handle(bank, cfg, post, NewSession, StartCommand(name))
    ensures r1 == Handle(bank, cfg, post, r0.session, Pressed(StartQuizData))
    ensures r0.screens == [Greeting(GreetingName(name))]
    ensures r1.screens == [QuestionScreen(bank, 0)]
    ensures r1.session == Session(Some(Fresh), WaitingForAnswer)
  {
    r0 := Handle(bank, cfg, post, NewSession, StartCommand(name));
    r1 := Handle(bank, cfg, post, r0.session, Pressed(StartQuizData));
  }

  /** Skipping the intermediate screen at counter 2 of a five-question bank. */
  lemma SkipStep(bank: Bank, cfg: YandexGpt.Config, post: YandexGpt.HttpRequest -> YandexGpt.Reply, m: Session)
    returns (r: Step)
    requires |bank| == 5
    requires m.progress.Some? && m.progress.value.current == 2
    ensures r == Handle(bank, cfg, post, m, Pressed(SkipIntermediateData))
    ensures r.screens == [QuestionScreen(bank, 2)]
    ensures r.session == m.(mode := WaitingForAnswer)
  {
    RouteSkip(bank, cfg, post, m);
    r := Handle(bank, cfg, post, m, Pressed(SkipIntermediateData));
  }

  /** The right answer to question k, given at counter k of a five-question
      bank whose record has k right answers: both counters reach k + 1, and
      the follow-up text comes before the screen of counter k + 1. */
  lemma RightAnswer(bank: Bank, cfg: YandexGpt.Config, post: YandexGpt.HttpRequest -> YandexGpt.Reply,
                    s: Session, k: nat) returns (r: Step)
    requires |bank| == 5 && k < 5
    requires 0 <= bank[k].correct < |bank[k].options|
    requires s.progress.Some?
    requires s.progress.value.current == k && s.progress.value.correctAnswers == k
    ensures r == Handle(bank, cfg, post, s, Pressed(AnswerData(k, bank[k].correct as nat)))
    ensures r.session.progress.Some?
    ensures r.session.progress.value.current == k + 1 && r.session.progress.value.correctAnswers == k + 1
    ensures var shown := ShowQuestion(bank, Session(r.session.progress, s.mode));
      r.screens == [Response(ResponseText(bank[k], bank[k].correct))] + shown.screens && r.session == shown.session
  {
    AnswerButton(bank, cfg, post, s, k, bank[k].correct as nat);
    r := Handle(bank, cfg, post, s, Pressed(AnswerData(k, bank[k].correct as nat)));
  }

  /** A right answer followed by another question. */
  lemma CorrectAnswerStep(bank: Bank, cfg: YandexGpt.Config, post: YandexGpt.HttpRequest -> YandexGpt.Reply,
                          s: Session, k: nat) returns (r: Step)
    requires |bank| == 5 && k + 1 != IntermediateAt && k + 1 < 5
    requires 0 <= bank[k].correct < |bank[k].options|
    requires s.mode == WaitingForAnswer && s.progress.Some?
    requires s.progress.value.current == k && s.progress.value.correctAnswers == k
    ensures r == Handle(bank, cfg, post, s, Pressed(AnswerData(k, bank[k].correct as nat)))
    ensures r.session == Session(r.session.progress, WaitingForAnswer) && r.session.progress.Some?
    ensures r.session.progress.value.current == k + 1 && r.session.progress.value.correctAnswers == k + 1
    ensures r.screens == [Response(ResponseText(bank[k], bank[k].correct)), QuestionScreen(bank, k + 1)]
  {
    r := RightAnswer(bank, cfg, post, s, k);
    ShowAfterAnswer(bank, r.session.progress.value, s.mode);
  }

  /** A right answer to question 1, followed by the intermediate screen. */
  lemma IntermediateAnswerStep(bank: Bank, cfg: YandexGpt.Config, post: YandexGpt.HttpRequest -> YandexGpt.Reply,
                               s: Session) returns (r: Step)
    requires |bank| == 5
    requires 0 <= bank[1].correct < |bank[1].options|
    requires s.progress.Some?
    requires s.progress.value.current == 1 && s.progress.value.correctAnswers == 1
    ensures r == Handle(bank, cfg, post, s, Pressed(AnswerData(1, bank[1].correct as nat)))
    ensures r.session.mode == WaitingIntermediate && r.session.progress.Some?
    ensures r.session.progress.value.current == 2 && r.session.progress.value.correctAnswers == 2
    ensures r.screens == [Response(ResponseText(bank[1], bank[1].correct)), Intermediate]
  {
    r := RightAnswer(bank, cfg, post, s, 1);
    ShowAfterAnswer(bank, r.session.progress.value, s.mode);
  }

  /** A right answer to the last question, followed by the final screen. */
  lemma FinalAnswerStep(bank: Bank, cfg: YandexGpt.Config, post: YandexGpt.HttpRequest -> YandexGpt.Reply,
                        s: Session) returns (r: Step)
    requires |bank| == 5
    requires 0 <= bank[4].correct < |bank[4].options|
    requires s.progress.Some?
    requires s.progress.value.current == 4 && s.progress.value.correctAnswers == 4
    ensures r == Handle(bank, cfg, post, s, Pressed(AnswerData(4, bank[4].correct as nat)))
    ensures r.session.mode == Idle && r.session.progress.Some?
    ensures r.session.progress.value.current == 5 && r.session.progress.value.correctAnswers == 5
    ensures r.screens == [Response(ResponseText(bank[4], bank[4].correct)), Final]
  {
    r := RightAnswer(bank, cfg, post, s, 4);
    ShowAfterAnswer(bank, r.session.progress.value, s.mode);
  }

  /** The screen the dispatch picks in a five-question bank, by counter. */
  lemma ShowAfterAnswer(bank: Bank, p: Progress, mode: Mode)
    requires |bank| == 5 && 0 < p.current <= 5
    ensures var shown := ShowQuestion(bank, Session(Some(p), mode));
      && (p.current == IntermediateAt ==> shown.screens == [Intermediate] && shown.session.mode == WaitingIntermediate)
      && (p.current == 5 ==> shown.screens == [Final] && shown.session.mode == Idle)
      && (p.current != IntermediateAt && p.current < 5 ==>
            shown.screens == [QuestionScreen(bank, p.current)] && shown.session.mode == mode)
      && shown.session.progress == Some(p)
  {
  }
}

=== FILE: builtins.dfy ===
/** The pieces of Python's built-in semantics that the bot relies on:
    the exceptions it can raise, `str.isspace`/`str.strip`, `str.split`,
    `str.replace('*', '')`, `int(...)`, decimal formatting of an int,
    and sequence indexing with negative indices. */
module Builtins {
  import opened Wrappers

  /** The Python exceptions the modelled code can raise. */
  datatype PyError =
    | ValueError        // int() of a non-number, wrong number of values to unpack
    | IndexError        // list or str index out of range
    | KeyError          // missing dict key
    | TypeError         // subscripting a value that does not support it
    | AttributeError    // `.replace` on a value that is not a str
    | RequestError      // the HTTP transport failed
    | JsonDecodeError   // the HTTP body is not JSON

  /** `seq[i]` with Python's rule that `-len <= i < 0` counts from the end. */
  function PyIndex<T>(s: seq<T>, i: int): (r: Option<T>)
    ensures r.Some? <==> -|s| <= i < |s|
    ensures 0 <= i < |s| ==> r == Some(s[i])
    ensures -|s| <= i < 0 ==> r == Some(s[|s| + i])
  {
    if 0 <= i < |s| then Some(s[i])
    else if -|s| <= i < 0 then Some(s[|s| + i])
    else None
  }

  // ---------------------------------------------------------------------
  // Whitespace and strip()

  /** `c.isspace()`: the characters Python treats as whitespace. */
  predicate IsSpace(c: char) {
    var n := c as int;
    || (0x09 <= n <= 0x0d) || (0x1c <= n <= 0x20) || n == 0x85 || n == 0xa0
    || n == 0x1680 || (0x2000 <= n <= 0x200a) || n == 0x2028 || n == 0x2029
    || n == 0x202f || n == 0x205f || n == 0x3000
  }

  predicate AllSpace(s: string) {
    forall i :: 0 <= i < |s| ==> IsSpace(s[i])
  }

  /** `s.lstrip()`: the suffix of `s` left once leading whitespace is dropped. */
  function StripLeft(s: string): (r: string)
    ensures |r| <= |s| && r == s[|s| - |r|..]
    ensures AllSpace(s[..|s| - |r|])
    ensures r == [] || !IsSpace(r[0])
  {
    if |s| > 0 && IsSpace(s[0]) then
      var r := StripLeft(s[1..]);
      StripLeftStep(s, r);
      r
    else s
  }

  /** `s.rstrip()`: the prefix of `s` left once trailing whitespace is dropped. */
  function StripRight(s: string): (r: string)
    ensures |r| <= |s| && r == s[..|r|]
    ensures AllSpace(s[|r|..])
    ensures r == [] || !IsSpace(r[|r| - 1])
  {
    if |s| > 0 && IsSpace(s[|s| - 1]) then
      var r := StripRight(s[..|s| - 1]);
      StripRightStep(s, r);
      r
    else s
  }

  /** A suffix of `s[1..]` behind whitespace is a suffix of `s` behind
      whitespace when `s[0]` is whitespace too. */
  lemma StripLeftStep(s: string, r: string)
    requires |s| > 0 && IsSpace(s[0])
    requires |r| <= |s| - 1 && r == s[1..][|s| - 1 - |r|..]
    requires AllSpace(s[1..][..|s| - 1 - |r|])
    ensures r == s[|s| - |r|..]
    ensures AllSpace(s[..|s| - |r|])
  {
    var k := |s| - |r|;
    assert s[1..][k - 1..] == s[k..];
    assert s[..k] == [s[0]] + s[1..][..k - 1];
    AllSpaceConcat([s[0]], s[1..][..k - 1]);
  }

  /** The mirror image of StripLeftStep at the end of `s`. */
  lemma StripRightStep(s: string, r: string)
    requires |s| > 0 && IsSpace(s[|s| - 1])
    requires |r| <= |s| - 1 && r == s[..|s| - 1][..|r|]
    requires AllSpace(s[..|s| - 1][|r|..])
    ensures r == s[..|r|]
    ensures AllSpace(s[|r|..])
  {
    assert s[..|s| - 1][..|r|] == s[..|r|];
    assert s[|r|..] == s[..|s| - 1][|r|..] + [s[|s| - 1]];
    AllSpaceConcat(s[..|s| - 1][|r|..], [s[|s| - 1]]);
  }

  /** `s.strip()`: the middle of `s` left once whitespace is dropped at
      both ends; it is empty exactly when `s` is all whitespace. */
  function Strip(s: string): (r: string)
    ensures |r| == 0 <==> AllSpace(s)
    ensures r == [] || (!IsSpace(r[0]) && !IsSpace(r[|r| - 1]))
    ensures exists i :: StrippedAt(s, r, i)
  {
    var l := StripLeft(s);
    var r := StripRight(l);
    StripFacts(s, l, r);
    r
  }

  /** `r` is the slice of `s` starting at `i`, with only whitespace before and after it. */
  predicate StrippedAt(s: string, r: string, i: int) {
    0 <= i <= |s| - |r| && r == s[i..i + |r|] && AllSpace(s[..i]) && AllSpace(s[i + |r|..])
  }

  /** What strip() promises, from the facts about lstrip() and rstrip():
      the result sits between two runs of whitespace, and it is empty
      exactly when `s` is all whitespace. */
  lemma StripFacts(s: string, l: string, r: string)
    requires |l| <= |s| && l == s[|s| - |l|..] && AllSpace(s[..|s| - |l|])
    requires l == [] || !IsSpace(l[0])
    requires |r| <= |l| && r == l[..|r|] && AllSpace(l[|r|..])
    requires r == [] || !IsSpace(r[|r| - 1])
    ensures |r| == 0 <==> AllSpace(s)
    ensures r == [] || (!IsSpace(r[0]) && !IsSpace(r[|r| - 1]))
    ensures StrippedAt(s, r, |s| - |l|)
  {
    var i := |s| - |l|;
    assert s[i + |r|..] == l[|r|..];
    if |r| == 0 {
      AllSpaceConcat(s[..i], l);
      assert s == s[..i] + l;
    } else {
      assert l[0] == r[0];
      assert s[i] == l[0];
    }
  }

  lemma AllSpaceConcat(a: string, b: string)
    requires AllSpace(a) && AllSpace(b)
    ensures AllSpace(a + b)
  {
    forall i | 0 <= i < |a + b| ensures IsSpace((a + b)[i]) {
      if i < |a| { assert (a + b)[i] == a[i]; } else { assert (a + b)[i] == b[i - |a|]; }
    }
  }

  // ---------------------------------------------------------------------
  // str.replace('*', '')

  /** `s.replace('*', '')`: every `*` removed, every other character kept. */
  function StripStars(s: string): (r: string)
    ensures '*' !in r
  {
    if |s| == 0 then ""
    else (if s[0] == '*' then "" else [s[0]]) + StripStars(s[1..])
  }

  /** Every character other than `*` keeps its number of occurrences. */
  lemma {:induction false} StripStarsCounts(s: string)
    ensures multiset(StripStars(s)) == multiset(s)['*' := 0]
  {
    if |s| > 0 {
      assert s == [s[0]] + s[1..];
      StripStarsCounts(s[1..]);
    }
  }

  /** Removing stars commutes with concatenation, so the order of the kept characters is the original order. */
  lemma {:induction false} StripStarsConcat(a: string, b: string)
    ensures StripStars(a + b) == StripStars(a) + StripStars(b)
  {
    if |a| == 0 {
      assert a + b == b;
    } else {
      var c, t := a[0], a[1..];
      assert a == [c] + t;
      assert a + b == [c] + (t + b);
      StripStarsCons(c, t + b);
      StripStarsCons(c, t);
      StripStarsConcat(t, b);
    }
  }

  /** Removing stars from a string with a known first character. */
  lemma StripStarsCons(c: char, t: string)
    ensures StripStars([c] + t) == (if c == '*' then "" else [c]) + StripStars(t)
  {
    assert ([c] + t)[0] == c && ([c] + t)[1..] == t;
  }

  /** A string without `*` is left as it is. */
  lemma {:induction false} StripStarsNoStar(s: string)
    requires '*' !in s
    ensures StripStars(s) == s
  {
    if |s| > 0 {
      assert s[0] != '*';
      assert '*' !in s[1..];
      StripStarsNoStar(s[1..]);
    }
  }

  /** Stripping twice is stripping once. */
  lemma StripStarsIdempotent(s: string)
    ensures StripStars(StripStars(s)) == StripStars(s)
  {
    StripStarsNoStar(StripStars(s));
  }

  // ---------------------------------------------------------------------
  // str.split(sep) and its inverse sep.join(parts)

  /** `sep.join(parts)` for a non-empty list of parts. */
  function Join(parts: seq<string>, sep: char): (r: string)
    requires |parts| >= 1
  {
    if |parts| == 1 then parts[0] else parts[0] + [sep] + Join(parts[1..], sep)
  }

  /** `s.split(sep)`: always at least one part, no part contains `sep`, and joining the parts gives `s` back. */
  function Split(s: string, sep: char): (r: seq<string>)
    ensures |r| >= 1
    ensures forall i :: 0 <= i < |r| ==> sep !in r[i]
    ensures Join(r, sep) == s
  {
    if |s| == 0 then [""]
    else
      var rest := Split(s[1..], sep);
      if s[0] == sep then
        assert s == [sep] + s[1..];
        [""] + rest
      else
        var r := [[s[0]] + rest[0]] + rest[1..];
        assert r[1..] == rest[1..];
        assert forall i :: 1 <= i < |r| ==> r[i] == rest[i];
        assert s == [s[0]] + s[1..];
        r
  }

  /** Splitting a string whose first separator follows `a` yields `a` first. */
  lemma {:induction false} SplitAfterPiece(a: string, sep: char, b: string)
    requires sep !in a
    ensures Split(a + [sep] + b, sep) == [a] + Split(b, sep)
  {
    if |a| == 0 {
      assert a + [sep] + b == [sep] + b;
      assert ([sep] + b)[1..] == b;
    } else {
      assert (a + [sep] + b)[1..] == a[1..] + [sep] + b;
      assert sep !in a[1..];
      SplitAfterPiece(a[1..], sep, b);
      assert a == [a[0]] + a[1..];
    }
  }

  /** A string without the separator splits into itself alone. */
  lemma {:induction false} SplitNoSep(a: string, sep: char)
    requires sep !in a
    ensures Split(a, sep) == [a]
  {
    if |a| > 0 {
      assert sep !in a[1..];
      SplitNoSep(a[1..], sep);
      assert a == [a[0]] + a[1..];
    }
  }

  /** split undoes join when no part contains the separator. */
  lemma {:induction false} SplitJoin(parts: seq<string>, sep: char)
    requires |parts| >= 1
    requires forall i :: 0 <= i < |parts| ==> sep !in parts[i]
    ensures Split(Join(parts, sep), sep) == parts
  {
    if |parts| == 1 {
      SplitNoSep(parts[0], sep);
    } else {
      assert forall i :: 0 <= i < |parts[1..]| ==> sep !in parts[1..][i] by {
        forall i | 0 <= i < |parts[1..]| ensures sep !in parts[1..][i] {
          assert parts[1..][i] == parts[i + 1];
        }
      }
      SplitJoin(parts[1..], sep);
      assert sep !in parts[0];
      SplitAfterPiece(parts[0], sep, Join(parts[1..], sep));
      assert parts == [parts[0]] + parts[1..];
    }
  }

  // ---------------------------------------------------------------------
  // Decimal digits: f"{n}" and int(s)

  predicate IsDigit(c: char) { '0' <= c <= '9' }

  predicate AllDigits(s: string) {
    forall i :: 0 <= i < |s| ==> IsDigit(s[i])
  }

  function DigitValue(c: char): (d: nat)
    requires IsDigit(c)
    ensures d < 10
  {
    c as int - '0' as int
  }

  function DigitChar(d: nat): (c: char)
    requires d < 10
    ensures IsDigit(c) && DigitValue(c) == d
  {
    ('0' as int + d) as char
  }

  /** The number a string of decimal digits denotes, most significant first. */
  function DigitsValue(s: string): nat
    requires AllDigits(s)
  {
    if |s| == 0 then 0 else DigitsValue(s[..|s| - 1]) * 10 + DigitValue(s[|s| - 1])
  }

  /** `f"{n}"` for a non-negative int: digits only, no leading zero, and reading the digits back gives `n`. */
  function Decimal(n: nat): (r: string)
    ensures |r| >= 1 && AllDigits(r)
    ensures DigitsValue(r) == n
    ensures |r| > 1 ==> r[0] != '0'
  {
    if n < 10 then [DigitChar(n)]
    else
      var h := Decimal(n / 10);
      var r := h + [DigitChar(n % 10)];
      assert r[..|r| - 1] == h;
      r
  }

  /** The four information separators U+001C to U+001F. str.isspace
      counts them as whitespace, but int() does not skip them: it only
      turns non-ASCII whitespace into spaces and then skips ASCII
      whitespace, so a separator anywhere in its argument is a ValueError. */
  predicate InfoSeparator(c: char) {
    0x1c <= c as int <= 0x1f
  }

  predicate HasSeparator(s: string) {
    exists k :: 0 <= k < |s| && InfoSeparator(s[k])
  }

  /** `int(s)` on a str: surrounding whitespace other than the information
      separators is ignored, then an optional sign and at least one ASCII
      digit; anything else is a ValueError. */
  function ParseInt(s: string): (r: Result<int, PyError>)
    ensures r.Err? ==> r.error == ValueError
    ensures HasSeparator(s) ==> r.Err?
  {
    if HasSeparator(s) then Err(ValueError) else ParseSigned(Strip(s))
  }

  /** The stripped text: an optional sign and at least one ASCII digit. */
  function ParseSigned(t: string): (r: Result<int, PyError>)
    ensures r.Err? ==> r.error == ValueError
    ensures |t| > 0 && AllDigits(t) ==> r == Ok(DigitsValue(t))
  {
    if |t| == 0 then Err(ValueError)
    else if t[0] == '-' || t[0] == '+' then
      if |t| > 1 && AllDigits(t[1..]) then
        var v: int := DigitsValue(t[1..]);
        Ok(if t[0] == '-' then -v else v)
      else Err(ValueError)
    else if AllDigits(t) then Ok(DigitsValue(t))
    else Err(ValueError)
  }

  /** After a sign, a non-empty ASCII digit string reads as its value,
      negated for `-`. */
  lemma ParseSignedSign(t: string)
    requires |t| > 1 && (t[0] == '-' || t[0] == '+') && AllDigits(t[1..])
    ensures ParseSigned(t) == Ok(if t[0] == '-' then -(DigitsValue(t[1..]) as int) else DigitsValue(t[1..]))
  {
  }

  /** A numeral as `int()` reads one once stripped: at least one ASCII
      digit, after an optional `+` or `-`. */
  predicate Numeral(t: string) {
    || (|t| > 0 && AllDigits(t))
    || (|t| > 1 && (t[0] == '-' || t[0] == '+') && AllDigits(t[1..]))
  }

  /** The stripped text reads exactly when it is a numeral. */
  lemma ParseSignedOk(t: string)
    ensures ParseSigned(t).Ok? <==> Numeral(t)
  {
  }

  /** `int(s)` succeeds exactly when `s` holds no information separator and
      strips to a numeral; otherwise it raises ValueError. */
  lemma ParseIntOk(s: string)
    ensures ParseInt(s).Ok? <==> !HasSeparator(s) && Numeral(Strip(s))
    ensures !ParseInt(s).Ok? ==> ParseInt(s) == Err(ValueError)
  {
    if !HasSeparator(s) {
      ParseSignedOk(Strip(s));
    }
  }

  /** int(f"{n}") == n for every non-negative n. */
  lemma ParseDecimal(n: nat)
    ensures ParseInt(Decimal(n)) == Ok(n)
  {
    ParseDigits(Decimal(n));
  }

  /** `int()` of a non-empty ASCII digit string is the value of its digits. */
  lemma ParseDigits(d: string)
    requires |d| > 0 && AllDigits(d)
    ensures ParseInt(d) == Ok(DigitsValue(d))
  {
    DigitsStripped(d);
    DigitsNoSeparator(d);
  }

  /** A non-empty digit string is its own strip(). */
  lemma DigitsStripped(d: string)
    requires |d| > 0 && AllDigits(d)
    ensures Strip(d) == d
  {
    assert IsDigit(d[0]) && IsDigit(d[|d| - 1]);
    StripKeeps(d);
  }

  /** A string whose ends are not whitespace is its own strip(). */
  lemma StripKeeps(s: string)
    requires |s| > 0 && !IsSpace(s[0]) && !IsSpace(s[|s| - 1])
    ensures Strip(s) == s
  {
    assert StripLeft(s) == s;
    assert StripRight(s) == s;
  }

  /** A digit string holds no information separator. */
  lemma DigitsNoSeparator(d: string)
    requires AllDigits(d)
    ensures !HasSeparator(d)
  {
    forall k | 0 <= k < |d| ensures !InfoSeparator(d[k]) { assert IsDigit(d[k]); }
  }

  /** A separator next to the digits is not skipped: `int("\x1c1")` raises,
      although `"\x1c1".strip()` is `"1"`. */
  lemma SeparatorRejected()
    ensures Strip("\U{1c}1") == "1"
    ensures ParseInt("\U{1c}1") == Err(ValueError)
  {
    var s := "\U{1c}1";
    assert s[1..] == "1";
    assert !IsSpace('1');
    assert StripLeft("1") == "1";
    assert StripLeft(s) == "1";
    assert StripRight("1") == "1";
    assert Strip(s) == "1";
    assert InfoSeparator(s[0]);
  }
}

=== FILE: callback.dfy ===
/** The callback data of the answer buttons: `answer_{q}_{i}` for option
    `i` of question `q`, and its decoding by `split("_")` and `int`. */
module Callback {
  import opened Wrappers
  import opened Builtins

  /** An inline button: its text and the callback data it sends back. */
  datatype Button = Button(text: string, data: string)

  /** The prefix that routes a callback to the answer handler. */
  const AnswerPrefix: string := "answer_"

  /** `f"answer_{q}_{i}"` */
  function AnswerData(q: nat, i: nat): (r: string)
    ensures AnswerPrefix <= r
  {
    "answer" + "_" + Decimal(q) + "_" + Decimal(i)
  }

  /** `_, q, a = data.split("_")` followed by `int(q)` and `int(a)`:
      ValueError unless there are exactly three parts and the last two are
      integers. The first part is not looked at. */
  function DecodeAnswer(data: string): (r: Result<(int, int), PyError>)
    ensures r.Err? ==> r.error == ValueError
    ensures r.Ok? ==> |Split(data, '_')| == 3
  {
    var parts := Split(data, '_');
    if |parts| != 3 then Err(ValueError)
    else
      match ParseInt(parts[1])
      case Err(e) => Err(e)
      case Ok(q) =>
        match ParseInt(parts[2])
        case Err(e) => Err(e)
        case Ok(a) => Ok((q, a))
  }

  /** Decoding succeeds exactly when the data splits into three parts and
      both the second and the third are read by `int()`. */
  lemma DecodeAnswerOk(data: string)
    ensures var parts := Split(data, '_');
      DecodeAnswer(data).Ok? <==> |parts| == 3 && ParseInt(parts[1]).Ok? && ParseInt(parts[2]).Ok?
  {
  }

  /** Decoding the data of a button gives back its question and option. */
  lemma DecodeAnswerData(q: nat, i: nat)
    ensures DecodeAnswer(AnswerData(q, i)) == Ok((q, i))
  {
    var parts := ["answer", Decimal(q), Decimal(i)];
    assert forall k :: 0 <= k < |parts| ==> '_' !in parts[k] by {
      assert '_' !in "answer";
      assert !IsDigit('_');
    }
    assert parts[1..][1..] == [Decimal(i)];
    assert Join(parts[1..], '_') == Decimal(q) + "_" + Decimal(i);
    assert Join(parts, '_') == "answer" + "_" + (Decimal(q) + "_" + Decimal(i));
    assert Join(parts, '_') == AnswerData(q, i);
    SplitJoin(parts, '_');
    ParseDecimal(q);
    ParseDecimal(i);
  }

  /** Distinct buttons carry distinct data. */
  lemma AnswerDataInjective(q1: nat, i1: nat, q2: nat, i2: nat)
    requires AnswerData(q1, i1) == AnswerData(q2, i2)
    ensures q1 == q2 && i1 == i2
  {
    DecodeAnswerData(q1, i1);
    DecodeAnswerData(q2, i2);
  }

  /** get_quiz_keyboard: one button per option, labelled with the option,
      whose data routes to the answer handler and decodes to this question
      and this option's position. */
  function QuizKeyboard(q: nat, options: seq<string>): (r: seq<Button>)
    ensures |r| == |options|
    ensures forall i :: 0 <= i < |r| ==> r[i].text == options[i]
    ensures forall i :: 0 <= i < |r| ==> AnswerPrefix <= r[i].data
    ensures forall i :: 0 <= i < |r| ==> DecodeAnswer(r[i].data) == Ok((q, i))
  {
    var r := seq(|options|, i requires 0 <= i < |options| => Button(options[i], AnswerData(q, i)));
    forall i | 0 <= i < |r|
      ensures AnswerPrefix <= r[i].data && DecodeAnswer(r[i].data) == Ok((q, i))
    {
      assert r[i].data == AnswerData(q, i);
      AnswerDataShape(q, i);
    }
    r
  }

  /** The i-th button of the keyboard carries the data answer_{q}_{i}. */
  lemma QuizKeyboardData(q: nat, options: seq<string>, i: nat)
    requires i < |options|
    ensures QuizKeyboard(q, options)[i].data == AnswerData(q, i)
  {
  }

  lemma AnswerDataShape(q: nat, i: nat)
    ensures AnswerPrefix <= AnswerData(q, i)
    ensures DecodeAnswer(AnswerData(q, i)) == Ok((q, i))
  {
    assert AnswerData(q, i) == AnswerPrefix + (Decimal(q) + "_" + Decimal(i));
    DecodeAnswerData(q, i);
  }
}

=== FILE: json.dfy ===
/** JSON values as Python's `json` module decodes them, and Python's
    subscript operator `v[k]` applied to such values. */
module Json {
  import opened Wrappers
  import opened Builtins

  /** A decoded JSON value: None, bool, int, float, str, list or dict. */
  datatype Json =
    | Null
    | Bool(b: bool)
    | Int(i: int)
    | Float(f: real)
    | Str(s: string)
    | Array(items: seq<Json>)
    | Object(fields: map<string, Json>)

  /** One subscript: `v["name"]` or `v[position]`. */
  datatype Selector = Key(name: string) | Index(position: int)

  /** `v[sel]` with Python's outcome for each kind of value: a dict raises
      KeyError for a missing key (and for any int, since JSON keys are
      strings), a list or a str raises IndexError out of range and TypeError
      for a str key, and None, bool and numbers raise TypeError. */
  function Subscript(v: Json, sel: Selector): (r: Result<Json, PyError>)
    ensures r.Err? ==> r.error in {KeyError, IndexError, TypeError}
    ensures v.Object? && sel.Key? ==> (r.Ok? <==> sel.name in v.fields)
    ensures v.Array? && sel.Index? ==> (r.Ok? <==> -|v.items| <= sel.position < |v.items|)
    ensures r.Ok? ==> (v.Object? && sel.Key?) || (v.Array? && sel.Index?) || (v.Str? && sel.Index? && r.value.Str?)
    ensures v.Object? && sel.Key? && sel.name in v.fields ==> r == Ok(v.fields[sel.name])
    ensures v.Object? && sel.Key? && sel.name !in v.fields ==> r == Err(KeyError)
    ensures v.Object? && sel.Index? ==> r == Err(KeyError)
    ensures v.Array? && sel.Index? && r.Ok? ==> PyIndex(v.items, sel.position) == Some(r.value)
    ensures v.Array? && sel.Index? && !(-|v.items| <= sel.position < |v.items|) ==> r == Err(IndexError)
    ensures v.Str? && sel.Index? ==> (r.Ok? <==> -|v.s| <= sel.position < |v.s|)
    ensures v.Str? && sel.Index? && r.Ok? ==> r.value.Str? && |r.value.s| == 1 && PyIndex(v.s, sel.position) == Some(r.value.s[0])
    ensures v.Str? && sel.Index? && !(-|v.s| <= sel.position < |v.s|) ==> r == Err(IndexError)
    ensures (v.Array? || v.Str?) && sel.Key? ==> r == Err(TypeError)
    ensures v.Null? || v.Bool? || v.Int? || v.Float? ==> r == Err(TypeError)
  {
    match (v, sel)
    case (Object(fields), Key(k)) => if k in fields then Ok(fields[k]) else Err(KeyError)
    case (Object(_), Index(_)) => Err(KeyError)
    case (Array(items), Index(i)) =>
      (match PyIndex(items, i)
       case Some(x) => Ok(x)
       case None => Err(IndexError))
    case (Str(s), Index(i)) =>
      (match PyIndex(s, i)
       case Some(c) => Ok(Str([c]))
       case None => Err(IndexError))
    case (Array(_), Key(_)) => Err(TypeError)
    case (Str(_), Key(_)) => Err(TypeError)
    case _ => Err(TypeError)
  }

  /** `v[p0][p1]...`: subscripts applied left to right, stopping at the first exception. */
  function Lookup(v: Json, path: seq<Selector>): (r: Result<Json, PyError>)
    ensures r.Err? ==> r.error in {KeyError, IndexError, TypeError}
    ensures path == [] ==> r == Ok(v)
    decreases |path|
  {
    if |path| == 0 then Ok(v)
    else
      match Subscript(v, path[0])
      case Ok(w) => Lookup(w, path[1..])
      case Err(e) => Err(e)
  }
}

=== FILE: quiz.dfy ===
/** The question bank and one user's quiz progress. The bank itself is
    data supplied from outside; only the shape of its records matters. */
module Quiz {

  /** One question of the bank: the option labels, the index of the right
      option, and the follow-up text for some of the option indices. */
  datatype QuestionRecord = QuestionRecord(options: seq<string>, correct: int, responses: map<int, string>)

  type Bank = seq<QuestionRecord>

  /** One logged answer: the question index carried by the button, the
      chosen option index and whether it was the right one. */
  datatype Entry = Entry(question: int, answer: int, correct: bool)

  /** The per-user record: index of the question to show next, number of
      right answers, and the answer log. */
  datatype Progress = Progress(current: nat, correctAnswers: nat, answers: seq<Entry>)

  /** The record written by /start and by the start button. */
  const Fresh: Progress := Progress(0, 0, [])

  /** The follow-up text used when a question has none for the chosen option. */
  const DefaultResponse: string := "Ответ обработан"

  /** The value of `current_question` at which the intermediate screen appears. */
  const IntermediateAt: nat := 2

  /** `responses.get(answer, "Ответ обработан")` */
  function ResponseText(q: QuestionRecord, answer: int): (r: string)
    ensures answer in q.responses ==> r == q.responses[answer]
    ensures answer !in q.responses ==> r == DefaultResponse
  {
    if answer in q.responses then q.responses[answer] else DefaultResponse
  }

  /** The number of log entries marked correct; never more than the log length. */
  function CountCorrect(es: seq<Entry>): (n: nat)
    ensures n <= |es|
  {
    if |es| == 0 then 0
    else CountCorrect(es[..|es| - 1]) + (if es[|es| - 1].correct then 1 else 0)
  }

  /** The consistency a progress record keeps: the right-answer counter
      agrees with the log, and one log entry exists per question advanced. */
  predicate Tallied(p: Progress) {
    p.correctAnswers == CountCorrect(p.answers) && p.current == |p.answers|
  }

  /** The progress update of one answer to question `question` (the record
      found at that index) with option `answer`: the counter moves on by one,
      one entry is logged, and the right-answer count goes up exactly when
      the option is the right one. */
  function RecordAnswer(p: Progress, question: QuestionRecord, qnum: int, answer: int): (r: Progress)
    ensures r.current == p.current + 1
    ensures r.answers == p.answers + [Entry(qnum, answer, answer == question.correct)]
    ensures answer == question.correct ==> r.correctAnswers == p.correctAnswers + 1
    ensures answer != question.correct ==> r.correctAnswers == p.correctAnswers
  {
    var right := answer == question.correct;
    Progress(p.current + 1,
             if right then p.correctAnswers + 1 else p.correctAnswers,
             p.answers + [Entry(qnum, answer, right)])
  }

  lemma FreshTallied()
    ensures Tallied(Fresh)
  {
  }

  /** Recording an answer keeps the counter consistent with the log. */
  lemma RecordPreservesTally(p: Progress, question: QuestionRecord, qnum: int, answer: int)
    requires Tallied(p)
    ensures Tallied(RecordAnswer(p, question, qnum, answer))
  {
    var r := RecordAnswer(p, question, qnum, answer);
    assert r.answers[..|r.answers| - 1] == p.answers;
  }

  /** A consistent record never claims more right answers than answers given. */
  lemma TalliedBound(p: Progress)
    requires Tallied(p)
    ensures p.correctAnswers <= |p.answers| == p.current
  {
  }
}

=== FILE: wrappers.dfy ===
/** Failure-carrying datatypes shared by the whole model. */
module Wrappers {

  /** A value that may be absent (Python's `None`). */
  datatype Option<+T> = None | Some(value: T)

  /** Either a value or the exception a Python expression raised. */
  datatype Result<+T, +E> = Ok(value: T) | Err(error: E)
}

=== FILE: yandex_gpt.dfy ===
/** The YandexGPT client: building the completion request, and turning
    the decoded reply into the text shown to the user. The HTTP call
    itself is a parameter: `post` maps the request to what came back. */
module YandexGpt {
  import opened Wrappers
  import opened Builtins
  import opened Json

  /** The `model_data` settings read from the environment at start-up.
      Variables that are not set are None; the float temperature is kept
      as an uninterpreted real. */
  datatype Config = Config(
    modelUri: Option<string>,
    temperature: real,
    maxTokens: int,
    url: Option<string>,
    authorization: Option<string>)

  /** The arguments of `requests.post(url, headers=..., json=...)`. */
  datatype HttpRequest = HttpRequest(url: Option<string>, headers: map<string, Option<string>>, body: Json)

  /** What the POST and the following `response.json()` produced. */
  datatype Reply = Decoded(body: Json) | NotJson | TransportFailure

  /** The text returned when the reply does not have the expected shape
      (written in pieces so that the verifier can see it holds no `*`). */
  const Fallback: string := "Произошла ошибка " + "при обращении " + "к YandexGPT. " + "Попробуйте позже."

  const SystemPrompt: string := "Ты эксперт по заводам, локомотивам и железнодорожной технике. Отвечай кратко и по делу."

  /** `res['result']['alternatives'][0]['message']['text']` */
  const AnswerPath: seq<Selector> :=
    [Key("result"), Key("alternatives"), Index(0), Key("message"), Key("text")]

  /** A config string as it lands in the JSON body (an unset variable becomes null). */
  function OptStr(o: Option<string>): Json {
    match o
    case None => Null
    case Some(s) => Str(s)
  }

  /** The `prompt` dict of make_zap: the configured model, `stream` off,
      the configured temperature, the given token budget or the configured
      one when none is given, and the messages exactly as passed in. */
  function RequestBody(cfg: Config, messages: Json, maxTokens: Option<int>): (r: Json)
    ensures r.Object? && r.fields.Keys == {"modelUri", "completionOptions", "messages"}
    ensures Lookup(r, [Key("modelUri")]) == Ok(OptStr(cfg.modelUri))
    ensures Lookup(r, [Key("messages")]) == Ok(messages)
    ensures var opts := r.fields["completionOptions"];
      opts.Object? && opts.fields.Keys == {"stream", "temperature", "maxTokens"}
    ensures Lookup(r, [Key("completionOptions"), Key("stream")]) == Ok(Bool(false))
    ensures Lookup(r, [Key("completionOptions"), Key("temperature")]) == Ok(Float(cfg.temperature))
    ensures maxTokens.None? ==>
      Lookup(r, [Key("completionOptions"), Key("maxTokens")]) == Ok(Int(cfg.maxTokens))
    ensures maxTokens.Some? ==>
      Lookup(r, [Key("completionOptions"), Key("maxTokens")]) == Ok(Int(maxTokens.value))
  {
    var budget := match maxTokens case None => cfg.maxTokens case Some(n) => n;
    var opts := Object(map["stream" := Bool(false), "temperature" := Float(cfg.temperature), "maxTokens" := Int(budget)]);
    var r := Object(map["modelUri" := OptStr(cfg.modelUri), "completionOptions" := opts, "messages" := messages]);
    LookupTwoKeys(r, "completionOptions", "stream");
    LookupTwoKeys(r, "completionOptions", "temperature");
    LookupTwoKeys(r, "completionOptions", "maxTokens");
    r
  }

  /** The request headers: exactly a JSON content type and the configured authorization. */
  function Headers(cfg: Config): (h: map<string, Option<string>>)
    ensures h.Keys == {"Content-Type", "Authorization"}
    ensures h["Content-Type"] == Some("application/json")
    ensures h["Authorization"] == cfg.authorization
  {
    map["Content-Type" := Some("application/json"), "Authorization" := cfg.authorization]
  }

  /** The arguments of `requests.post`: the configured URL, the headers
      above, and the request body as its JSON payload. */
  function Request(cfg: Config, messages: Json, maxTokens: Option<int>): (req: HttpRequest)
    ensures req.url == cfg.url && req.headers == Headers(cfg)
    ensures req.body.Object? && "messages" in req.body.fields && req.body.fields["messages"] == messages
    ensures req.body == RequestBody(cfg, messages, maxTokens)
  {
    HttpRequest(cfg.url, Headers(cfg), RequestBody(cfg, messages, maxTokens))
  }

  /** The answer path exists in the reply: every step is a dict holding the
      next key, and `alternatives` is a non-empty list whose first element
      is a dict. The final `text` value may be of any type. */
  predicate PathPresent(body: Json) {
    body.Object? && "result" in body.fields &&
    var res := body.fields["result"];
    res.Object? && "alternatives" in res.fields &&
    var alts := res.fields["alternatives"];
    alts.Array? && |alts.items| > 0 && alts.items[0].Object? && "message" in alts.items[0].fields &&
    var msg := alts.items[0].fields["message"];
    msg.Object? && "text" in msg.fields
  }

  /** The value found at the end of the answer path. */
  function AnswerLeaf(body: Json): Json
    requires PathPresent(body)
  {
    body.fields["result"].fields["alternatives"].items[0].fields["message"].fields["text"]
  }

  /** Following the answer path with Python subscripts succeeds exactly when
      the path is present, and then yields the leaf. */
  lemma LookupAnswerPath(body: Json)
    ensures Lookup(body, AnswerPath).Ok? <==> PathPresent(body)
    ensures PathPresent(body) ==> Lookup(body, AnswerPath) == Ok(AnswerLeaf(body))
  {
    var p := AnswerPath;
    assert p[1..] == [Key("alternatives"), Index(0), Key("message"), Key("text")];
    assert p[2..] == [Index(0), Key("message"), Key("text")];
    assert p[3..] == [Key("message"), Key("text")];
    assert p[4..] == [Key("text")];
    assert p[5..] == [];
    assert p[1..][1..] == p[2..];
    assert p[2..][1..] == p[3..];
    assert p[3..][1..] == p[4..];
    assert p[4..][1..] == p[5..];
  }

  /** Two dict keys in a row read the nested value. */
  lemma LookupTwoKeys(v: Json, k1: string, k2: string)
    ensures v.Object? && k1 in v.fields && v.fields[k1].Object? && k2 in v.fields[k1].fields ==>
      Lookup(v, [Key(k1), Key(k2)]) == Ok(v.fields[k1].fields[k2])
  {
    assert [Key(k1), Key(k2)][1..] == [Key(k2)];
    assert [Key(k2)][1..] == [];
  }

  /** The lookup and strip step of make_zap, inside its try block: the text
      with every `*` removed; the fallback text when a lookup raises
      IndexError, TypeError or KeyError; and AttributeError, which is not
      caught, when the text is not a str. */
  function ExtractAnswer(body: Json): (r: Result<string, PyError>)
    ensures !PathPresent(body) ==> r == Ok(Fallback)
    ensures PathPresent(body) && AnswerLeaf(body).Str? ==> r == Ok(StripStars(AnswerLeaf(body).s))
    ensures PathPresent(body) && !AnswerLeaf(body).Str? ==> r == Err(AttributeError)
    ensures r.Ok? ==> '*' !in r.value
  {
    LookupAnswerPath(body);
    assert '*' !in Fallback;
    match Lookup(body, AnswerPath)
    case Err(_) => Ok(Fallback)
    case Ok(Str(t)) => Ok(StripStars(t))
    case Ok(_) => Err(AttributeError)
  }

  /** make_zap: post the request built from the messages and the token
      budget, then extract the answer. It fails only when the transport
      fails, the body is not JSON, or the text found is not a str. */
  function MakeZap(cfg: Config, messages: Json, maxTokens: Option<int>, post: HttpRequest -> Reply): (r: Result<string, PyError>)
    ensures var reply := post(Request(cfg, messages, maxTokens));
      r.Err? <==> (!reply.Decoded? || (PathPresent(reply.body) && !AnswerLeaf(reply.body).Str?))
    ensures var reply := post(Request(cfg, messages, maxTokens));
      reply.Decoded? && !PathPresent(reply.body) ==> r == Ok(Fallback)
    ensures var reply := post(Request(cfg, messages, maxTokens));
      reply.Decoded? && PathPresent(reply.body) && AnswerLeaf(reply.body).Str? ==>
        r == Ok(StripStars(AnswerLeaf(reply.body).s))
    ensures r.Ok? ==> '*' !in r.value
  {
    match post(Request(cfg, messages, maxTokens))
    case TransportFailure => Err(RequestError)
    case NotJson => Err(JsonDecodeError)
    case Decoded(body) => ExtractAnswer(body)
  }

  function ChatMessage(role: string, text: string): Json {
    Object(map["role" := Str(role), "text" := Str(text)])
  }

  /** The message list of ask_yandex_gpt: the fixed system message, then the
      user's question verbatim. */
  function Messages(question: string): (r: Json)
    ensures r.Array? && |r.items| == 2
    ensures forall i :: 0 <= i < |r.items| ==> r.items[i].Object? && r.items[i].fields.Keys == {"role", "text"}
    ensures Lookup(r, [Index(0), Key("role")]) == Ok(Str("system"))
    ensures Lookup(r, [Index(0), Key("text")]) == Ok(Str(SystemPrompt))
    ensures Lookup(r, [Index(1), Key("role")]) == Ok(Str("user"))
    ensures Lookup(r, [Index(1), Key("text")]) == Ok(Str(question))
  {
    var r := Array([ChatMessage("system", SystemPrompt), ChatMessage("user", question)]);
    IndexThenKey(r, 0, "role");
    IndexThenKey(r, 0, "text");
    IndexThenKey(r, 1, "role");
    IndexThenKey(r, 1, "text");
    r
  }

  /** A list index followed by a dict key reads the nested value. */
  lemma IndexThenKey(v: Json, i: nat, k: string)
    ensures v.Array? && i < |v.items| && v.items[i].Object? && k in v.items[i].fields ==>
      Lookup(v, [Index(i), Key(k)]) == Ok(v.items[i].fields[k])
  {
    assert [Index(i), Key(k)][1..] == [Key(k)];
    assert [Key(k)][1..] == [];
  }

  /** The request ask_yandex_gpt sends: the configured token budget, and
      the question as the text of the second message. */
  function AskRequest(cfg: Config, question: string): (req: HttpRequest)
    ensures req.url == cfg.url && req.headers == Headers(cfg)
    ensures Lookup(req.body, [Key("completionOptions"), Key("maxTokens")]) == Ok(Int(cfg.maxTokens))
    ensures Lookup(req.body, [Key("messages"), Index(1), Key("text")]) == Ok(Str(question))
    ensures req == Request(cfg, Messages(question), None)
  {
    var req := Request(cfg, Messages(question), None);
    var path := [Key("messages"), Index(1), Key("text")];
    assert path[1..] == [Index(1), Key("text")];
    req
  }

  /** ask_yandex_gpt: make_zap on the two-message list with the default budget. */
  function AskYandexGpt(cfg: Config, question: string, post: HttpRequest -> Reply): (r: Result<string, PyError>)
    ensures var reply := post(AskRequest(cfg, question));
      r.Err? <==> (!reply.Decoded? || (PathPresent(reply.body) && !AnswerLeaf(reply.body).Str?))
    ensures var reply := post(AskRequest(cfg, question));
      reply.Decoded? && !PathPresent(reply.body) ==> r == Ok(Fallback)
    ensures var reply := post(AskRequest(cfg, question));
      reply.Decoded? && PathPresent(reply.body) && AnswerLeaf(reply.body).Str? ==>
        r == Ok(StripStars(AnswerLeaf(reply.body).s))
    ensures r.Ok? ==> '*' !in r.value
  {
    MakeZap(cfg, Messages(question), None, post)
  }
}
